=== FILE: README.md ===
# World-Wasm host/engine bridge, modelled in Dafny

World-Wasm runs the WORLD vocoder (F0 estimation with DIO/Harvest, StoneMask
refinement, CheapTrick spectral envelope, D4C aperiodicity, synthesis, and a
WAV codec) compiled to WebAssembly, behind a JavaScript `World` class. This
project models the bridge between the two sides:

- **`World` class** (`src/world.ts`). It covers:
  - the one-shot factory and its constructor guard;
  - the per-call protocol. Inputs go into numbered context slots, the engine
    export is called, the answer is read back from slots, and `#destruct`
    always runs;
  - the `assertRet` check;
  - the in-memory `WasiFile` with its growth policy, `read`, `write` and `seek`;
  - the WASI shims `fd_read`, `fd_write`, `fd_seek` and `fd_close`;
  - the slot-transfer imports `readFloat64Array(2D)` and `writeFloat64Array(2D)`.
- **Engine exports** (`src/main.cpp`):
  - `_init`, `_dio`, `_harvest`, `_stonemask`, `_cheaptrick`, `_d4c`, `_synthesis`;
  - `_wavreadlength`, `_wavread`, `_wavwrite`;
  - `__syscall_openat` and its twin `__wasilibc_open_nomode` (`src/extern.cpp`).

  Each export is modelled as what it reads from which slot and what it writes
  to which slot, with which length and width.
- **`Ndarray`** (`src/ndarray.ts`). It covers:
  - the `types` table and its two inverse maps;
  - `create` with every form of `value` and `shape`;
  - `_reshape` and `xreshape`, which yield rows while the row offset is inside
    the buffer;
  - `subarray`, `slice`, `reshape`, `toBuffer`, `pack`, `unpack`, `isNdarray`.

The numeric algorithms themselves are not modelled:
- F0 estimation, spectral analysis, synthesis and the WAV codec are opaque
  functions, gathered as fields of `Engine.Numerics`.
- A double is its 64 bits (`bv64`); nothing does floating-point arithmetic.

Modules, one per file:

| module | file | models |
|---|---|---|
| `Common` | common.dfy | `Result`, `Option`, bytes, the host faults (a JavaScript exception the bridge can raise) |
| `VirtualFile` | virtual_file.dfy | `WasiFile` |
| `WasiShims` | wasi_shims.dfy | the `wasi_snapshot_preview1` imports over the descriptor table |
| `PathRouting` | path_routing.dfy | `__syscall_openat`, `__wasilibc_open_nomode` |
| `TypedArrays` | typed_arrays.dfy | typed arrays over shared storage, `subarray`, the dtype table |
| `ShapeText` | shape_text.dfy | shapes given as comma-separated text |
| `Ndarray` | ndarray.dfy | the `Ndarray` class |
| `Engine` | engine.dfy | slot transfer and the engine's exported functions |
| `World` | world.dfy | the `World` class's public methods and life cycle |

Three places where the source does something other than what it evidently
intends are listed under "## Findings".
- Each has a member that models the code as written, with a lemma or
  contract that exhibits the discrepancy.
- Each also has a corrected member, and the rest of the model uses the
  corrected one.

Where the code does something surprising, the model follows the code. In
particular:
- `harvest` counts its frames with the DIO option's frame period, which
  `#init` has just reset to its default (`src/main.cpp:159`). The model keeps
  this as written, in `Engine.EngineHarvest` and `World.Harvest`.
- `stonemask` does not call `#init`, so it leaves the engine options as they
  were (`World.StoneMask`).

## Model

| member | source | states |
|---|---|---|
| VirtualFile.FromCapacity | src/world.ts:51-54 | a file made from a number has that capacity, position 0 and no contents |
| VirtualFile.FromBytes | src/world.ts:55-58 | a file made from bytes has exactly those bytes as contents, read from position 0 |
| VirtualFile.Data | src/world.ts:123-125 | `getData` shows exactly the first `size` bytes of the store |
| VirtualFile.GrowFrom | src/world.ts:63-65 | the do-while growth loop ends strictly above the old capacity and at or above the need, less than one 64 KiB step and less than twice the need beyond it, and grows once when nothing more is needed |
| VirtualFile.GrowFromIsFirstReaching | src/world.ts:65 | the capacity reached is the first step of the doubling-then-64 KiB sequence that covers the need: every earlier step falls short |
| VirtualFile.LinearGrowth | src/world.ts:65 | from 64 KiB up, capacity grows in whole 64 KiB steps |
| VirtualFile.Capacity | src/world.ts:60-70 | a sufficient buffer is kept; otherwise the new capacity covers the need with less than 64 KiB to spare and less than twice the need, except that an empty buffer first becomes 8 and then 16 bytes |
| VirtualFile.Grow | src/world.ts:60-70 | growth keeps position, size and every old byte, and the new bytes are zero |
| VirtualFile.WriteOne | src/world.ts:94-100 | one region written at the position: the position advances by its length, the size becomes the larger of old size and new end, those bytes hold the data, and every other byte is unchanged or zero |
| VirtualFile.WriteEffectCompose | src/world.ts:93-101 | two successive writes have the effect of one write of the two data concatenated, which is what lets the loop be stated as a single write |
| VirtualFile.Write | src/world.ts:90-103 | succeeds exactly when every region lies inside memory, reports the total region length, and has the effect of writing the gathered bytes of all regions at the position |
| VirtualFile.Read | src/world.ts:71-89 | fails when the position is past the size and there is a region to fill; succeeds when regions fit and the position is within the size; only the position changes, by the smaller of the requested total and the bytes left |
| VirtualFile.ReadOneRegion | src/world.ts:71-89 | a single-region read copies exactly the next min(len, size - pos) stored bytes into the region |
| VirtualFile.Seek | src/world.ts:104-122 | SET, CUR and END give offset, pos + offset and size + offset; any other whence gives -1 and no change; the position moves only to a non-negative target |
| VirtualFile.SeekProperties | src/world.ts:104-122 | seeking 0 from the current position is a no-op, seeking 0 from the end moves to the size, a refused seek keeps the position, and seeking keeps the file valid |
| VirtualFile.WriteSeekReadRoundTrip | src/world.ts:71-122 | bytes written into a fresh file, after a seek back to 0, read back unchanged into a region of the same length |
| VirtualFile.WriteFreshData | src/world.ts:90-125 | writing bytes into an empty file makes `getData` return exactly those bytes |
| VirtualFile.EmptyFileTakesContent | src/world.ts:123-125 | after any write into an empty file, `getData` is exactly the written content |
| WasiShims.FdRead | src/world.ts:138-145 | a missing descriptor answers -EBADF and changes nothing; otherwise code 0, the count read is stored, and only that file's position moves by it |
| WasiShims.FdWrite | src/world.ts:146-153 | a missing descriptor answers -EBADF; otherwise it succeeds exactly when regions fit, stores the total length, writes the gathered bytes to that file, and leaves the other descriptors alone |
| WasiShims.FdSeek | src/world.ts:154-162 | -EBADF for a missing descriptor, -EINVAL and no change for a negative target, otherwise code 0 with the new offset stored and the position moved there |
| WasiShims.FdClose | src/world.ts:169-174 | -EBADF for a missing descriptor; otherwise the file stays in the table, rewound to position 0 |
| WasiShims.ShimCodes | src/world.ts:138-174 | every shim answers 0 or a negated errno from its own list, and a non-zero answer leaves the descriptor table untouched |
| PathRouting.OpenAt | src/main.cpp:29-49 | a path opens as a non-negative descriptor exactly when it is one of the three standard streams or the data file, and then as its place in that table; any other path gets -EPERM |
| PathRouting.OpenNoMode | src/extern.cpp:11-30 | the same routing from the path alone: a routed path gets its place in the table, any other path -EPERM |
| PathRouting.OpenAtFollowsTable | src/main.cpp:29-49 | the four routed paths open as descriptors 0, 1, 2, 3 in table order; every other path is refused with -EPERM; the directory and flags play no part |
| PathRouting.OpenNoModeAgrees | src/extern.cpp:11-30 | the open-without-mode routine answers exactly what `__syscall_openat` answers for every path, whatever the flags |
| PathRouting.RoutesAreDistinct | src/extern.cpp:11-30 | distinct routed paths get distinct descriptors, and the data file gets descriptor 3 |
| TypedArrays.ElementSize | src/ndarray.ts:2-6 | every element type is 1, 2, 4 or 8 bytes wide |
| TypedArrays.TagMapsInvert | src/ndarray.ts:29-35 | the constructor-to-tag and tag-to-constructor maps built from the table invert each other |
| TypedArrays.Alloc | src/ndarray.ts:86 | `new Ctor(n)` is a fresh storage of exactly n zero elements, viewed from byte 0 |
| TypedArrays.OverStorage | src/ndarray.ts:155 | a typed array over a whole storage exists exactly when the storage is a whole number of elements, and then shows all its bytes |
| TypedArrays.Relative | src/ndarray.ts:112-113 | relative indices land in [0, len], and an index already in range is kept |
| TypedArrays.Subarray | src/ndarray.ts:38 | a typed subarray shares the storage, has the clamped length, and starts at the clamped begin |
| TypedArrays.SubarrayBytes | src/ndarray.ts:38 | a typed subarray's bytes are exactly the window of the parent's bytes it selects |
| TypedArrays.ByteView | src/ndarray.ts:148 | the byte view of an array shares its storage and shows exactly its bytes |
| ShapeText.Split | src/ndarray.ts:79 | splitting at commas always yields at least one piece, and no piece contains a comma |
| ShapeText.ParseShow | src/ndarray.ts:79 | a decimal numeral converts back to the number it shows |
| ShapeText.SplitJoin | src/ndarray.ts:79 | splitting comma-free pieces joined by commas gives the pieces back |
| ShapeText.ParseFormat | src/ndarray.ts:78-79 | a shape written as comma-separated numerals is readable and names that same shape |
| Ndarray.CountFromCharacterised | src/ndarray.ts:53-59 | the row generator stops at the first row whose offset reaches the buffer length, or after all announced rows |
| Ndarray.RowCount | src/ndarray.ts:53-59 | the generator yields at most shape[0] rows, every one starting inside the buffer, and stops early only at a row that starts at or past its end |
| Ndarray.Reshape | src/ndarray.ts:60-72 | views alias the buffer's storage; rank two and up keep buffer, shape and offset with the generator's rows; rank one is the buffer itself or the subarray of exactly the announced elements |
| Ndarray.RowElements | src/ndarray.ts:53-72 | row i of a reshaped view is the reshape of the remaining dimensions i strides past its offset, and for an in-bounds view its elements are exactly the i-th stride of `toBuffer`'s elements, so the rows tile the view |
| Ndarray.ReshapeWindow | src/ndarray.ts:53-72 | reshaping m rows at the offset of row s builds exactly rows s to s+m-1 of the parent reshape |
| Ndarray.ReshapeBytes | src/ndarray.ts:60-72 | a reshape whose elements lie inside the buffer flattens to exactly the product(shape) elements from its offset |
| Ndarray.ReshapeIsWf | src/ndarray.ts:60-72 | everything `_reshape` builds is a well-formed view |
| Ndarray.Create | src/ndarray.ts:77-96 | fails exactly on an unknown type tag; a shape of rank two or more gives a view of that shape from offset 0, or from the given offset over an existing array; rank one gives a flat array, of the announced length when fresh; an existing array is viewed in place; otherwise the storage is a fresh `new Ctor(product(shape))` of the named type |
| Ndarray.CreateFromText | src/ndarray.ts:78-79 | a shape given as text behaves exactly like the same shape given as numbers |
| Ndarray.IsNdarray | src/ndarray.ts:40-52 | a non-array never passes; a higher-rank view passes exactly for its own rank and, when a type is asked for, its buffer's type; a typed array passes exactly for rank 1 and, when asked, its own type |
| Ndarray.CreatedIsNdarray | src/ndarray.ts:40-52 | a freshly created view passes `isNdarray` for its own rank, with or without the type, and fails it for any other rank |
| Ndarray.Subarray | src/ndarray.ts:111-120 | the corrected subarray shares buffer and storage and keeps the inner dimensions; with s the clamped begin, it holds the rows from s up to the clamped end (none when that is below s), its first dimension is their number, and its offset is s strides past the view's |
| Ndarray.SubarrayAsWritten | src/ndarray.ts:111-120 | as written, the rows start at the begin clamped after the hand shift, while the offset is the once-shifted begin strides past the view's, clamped or not; it agrees with the corrected one whenever -length ≤ begin ≤ length |
| Ndarray.SubarrayKeepsWf | src/ndarray.ts:111-120 | a subarray of a well-formed view is well formed: its rows are the ones reshaping gives at its offset |
| Ndarray.SubarrayInBounds | src/ndarray.ts:111-120 | a subarray of an in-bounds view is in bounds, with offset advanced by begin rows |
| Ndarray.SubarrayElements | src/ndarray.ts:111-134 | a subarray's elements are exactly the window of its parent's elements the selected rows cover |
| Ndarray.AsWrittenSubarrayPastEnd | src/ndarray.ts:111-120 | on the same view, `subarray(4, 3)` as written keeps no rows but records offset 8, 4 rows on; corrected, the offset stops at the view's end, 6 |
| Ndarray.AsWrittenSubarrayOfSix | src/ndarray.ts:111-120 | on a 3x2 view, `subarray(-5, 3)` as written keeps rows 1 and 2 but records offset -4 and shape [2, 2]; corrected, it keeps all three rows |
| Ndarray.EndingAtZeroIsEmpty | src/ndarray.ts:127-134 | a view whose announced elements end at offset 0 flattens and packs to nothing |
| Ndarray.SubarrayAsWrittenLosesElements | src/ndarray.ts:111-134 | as written, that subarray announces 4 elements but packs to none |
| Ndarray.ToBuffer | src/ndarray.ts:127-134 | the flat buffer of a view shares the storage and, for an in-bounds view, holds exactly the product(shape) elements from the view's offset |
| Ndarray.ReshapeView | src/ndarray.ts:121-126 | `reshape` gives a well-formed view of the same element type over the same storage: at rank two or more, over the same buffer with the new shape and the old offset; at rank one, a flat array holding the announced elements from the offset |
| Ndarray.ReshapeKeepsElements | src/ndarray.ts:121-134 | reshaping to dimensions of the same product keeps exactly the same elements |
| Ndarray.Flatten | src/ndarray.ts:136-144 | `pack`'s flat array has the view's storage and element type |
| Ndarray.Pack | src/ndarray.ts:136-150 | the packed form records the view's shape and type tag and its flat bytes, over the same storage |
| Ndarray.Unpack | src/ndarray.ts:151-156 | unpacking succeeds exactly for a known tag and a whole number of elements, into a fresh storage holding the packed bytes |
| Ndarray.PackUnpack | src/ndarray.ts:136-156 | unpacking a packed view gives a view in fresh storage with the same shape, type and bytes |
| Ndarray.UnpackPack | src/ndarray.ts:136-156 | packing an unpacked value whose bytes fill its shape gives back the same shape, type and bytes |
| Ndarray.FlattenWhole | src/ndarray.ts:67-68 | a buffer reshaped from offset 0 flattens back to itself and packs to its own byte view |
| Ndarray.PackCreate | src/ndarray.ts:77-96 | a view created from a type tag packs to that shape and tag with all-zero bytes |
| Ndarray.Slice | src/ndarray.ts:108-110 | `slice` always yields a well-formed view in fresh storage whose packed form has the same shape, type tag and bytes as the packed `subarray` over the same window |
| Ndarray.SliceCopies | src/ndarray.ts:108-134 | the slice of an in-bounds view has the subarray's shape, and its bytes are exactly the window of the parent's elements the selected rows cover |
| Engine.CDiv | src/main.cpp:206 | the engine's `int` division truncates toward zero for negative dividends |
| Engine.WidthRoundTrip | src/world.ts:330 | the FFT size `synthesis` derives from a spectrogram width, (w - 1) * 2, gives back exactly width w in the engine, negative or not |
| Engine.SetSource | src/world.ts:183 | what `set` copies from a slot: a flat array's own elements, or one number per row of a matrix, each row's ToNumber |
| Engine.ReadVec | src/world.ts:181-184 | copying a slot into an engine array fails on a missing slot and on a source longer than the engine array, and succeeds otherwise; the engine array then starts with the source and the rest is uninitialised |
| Engine.ReadVecExact | src/world.ts:181-184 | reading a flat slot at its own length returns it unchanged |
| Engine.WriteVec | src/world.ts:185-189 | writing a slot replaces that slot with a fresh array of the engine's values and leaves every other slot as it was |
| Engine.RowsFrom | src/world.ts:194-196 | the row loop succeeds exactly when each remaining row exists and fits the engine width, copying each row padded |
| Engine.FullRowsFit | src/world.ts:194-196 | a matrix slot with every announced row at its own width fits any read of at most that many rows at that width |
| Engine.CopiedAt | src/world.ts:194-196 | after a successful row loop, engine row j is slot row j padded to the engine width |
| Engine.ReadMat | src/world.ts:190-197 | copying x rows succeeds at once for x = 0; otherwise a negative width fails first (the engine row's view is built before the slot is read), then a missing slot; from a matrix every row must be present and short enough, and engine row i is slot row i padded; from a flat array the first x items must exist, and as numbers they copy nothing, so every engine row stays uninitialised |
| Engine.WriteMat | src/world.ts:198-205 | writing x rows of width y succeeds exactly when x is 0 or y is positive; the slot then holds a full x-by-y matrix of the engine's cells, and nothing else changes |
| Engine.NewRowsFull | src/world.ts:201 | a freshly created x-by-y view has all x rows exactly when the width is positive |
| Engine.Init | src/main.cpp:107-126 | `_init` with no F0 bounds resets both frame periods to the default and returns the FFT size for the rate, which it also stores |
| Engine.EngineDio | src/main.cpp:128-152 | succeeds exactly when the signal slot can be read and DIO's frame count is non-negative; a negative count aborts in `new double[f0_length]`; stores the frame period; writes the time axis to slot 1 and the raw or refined F0 to slot 2, with that many frames |
| Engine.EngineHarvest | src/main.cpp:154-178 | as `_dio`, but with Harvest's frame count, taken with the DIO frame period, aborting when negative, and the Harvest period stored |
| Engine.ReadInputs | src/main.cpp:186-188 | reading signal, time axis and F0 succeeds exactly when all three slots can be read at their lengths, and otherwise names the slot that failed |
| Engine.EngineStoneMask | src/main.cpp:180-195 | succeeds exactly when the inputs can be read, and replaces only slot 2 with the refined F0 |
| Engine.EngineCheapTrick | src/main.cpp:197-214 | succeeds exactly when the inputs can be read and the width fft/2+1 can hold the rows; aborts on a negative width; stores and returns the FFT size; writes a full F0-length by width spectrogram to slot 3 and nothing else, whose cell (i, j) is CheapTrick of the signal, time axis and F0 read in, at that FFT size |
| Engine.EngineD4C | src/main.cpp:216-235 | as `_cheaptrick`, with a non-positive FFT size replaced by the rate's default, and the aperiodicity written to slot 4, whose cell (i, j) is D4C of the inputs read in |
| Engine.EngineSynthesis | src/main.cpp:237-263 | aborts on a negative width; otherwise succeeds exactly when F0 and both matrices can be read at that width and the output length is non-negative, and writes only the output to slot 0, whose sample i is the synthesis of the F0 and the two matrices as read |
| Engine.Print | src/world.ts:146-153 | codec text printed to standard output is appended to descriptor 1 and leaves every other descriptor untouched; with no descriptor table, printing faults |
| Engine.DataFile | src/world.ts:339-342 | the codec sees the data file exactly when descriptor 3 is present |
| Engine.EngineWavReadLength | src/main.cpp:74-79 | returns the codec's length for the data file and appends its report to standard output, leaving the data file unchanged |
| Engine.EngineWavRead | src/main.cpp:80-92 | returns the sample rate; only a positive rate writes the decoded samples to slot 0, and the data file is unchanged |
| Engine.EngineWavWrite | src/main.cpp:93-100 | fails when the signal slot cannot be read; otherwise the encoded bytes are written to descriptor 3 and no other descriptor changes |
| World.Construct | src/world.ts:223-231 | the constructor refuses any instance but the factory's current one, then may trap in `_initialize`; a constructed world has no context, no descriptors and no pointers |
| World.CreateWorldAsWritten | src/world.ts:213-216 | the factory as written leaves its token set when the constructor throws |
| World.CreateWorld | src/world.ts:213-216 | the corrected factory always clears the token, and yields a world exactly when initialisation does not trap |
| World.FactoryLeaksToken | src/world.ts:213-231 | as written, after a trapping construction the same instance can be constructed again from outside the factory |
| World.FactoryGuards | src/world.ts:213-231 | after the corrected factory, no instance can be constructed from outside it |
| World.ConstructNotify | src/world.ts:178-180 | a notified pointer is appended to the list and nothing else changes |
| World.NotifyAllRecords | src/world.ts:178-180 | notifications record their pointers in order |
| World.Destruct | src/world.ts:248-255 | `#destruct` drops the context and descriptors and hands over every recorded pointer, in order |
| World.DestructOrder | src/world.ts:248-255 | the pointers handed to `_destruct` are exactly those notified, in order, and a second `#destruct` hands over none |
| World.Finish | src/world.ts:263-265 | every call ends idle, with its recorded pointers destructed, whatever its result |
| World.AssertRet | src/world.ts:37-39 | a negative return raises "invalid number"; a non-negative or missing return passes |
| World.Dio | src/world.ts:256-266 | returns exactly when DIO's frame count is non-negative, and otherwise raises the engine's abort; the F0 and time axis have that many frames, the F0 refined exactly when asked; the engine keeps the new frame period |
| World.Harvest | src/world.ts:267-277 | returns exactly when Harvest's frame count, taken with the default frame period, is non-negative, and otherwise raises the abort; the F0 is refined exactly when asked |
| World.InputsRead | src/world.ts:281 | the engine reads signal, time axis and F0 placed by the host exactly when the time axis is no longer than F0, padding the time axis |
| World.StoneMask | src/world.ts:278-287 | succeeds exactly when the time axis is no longer than F0; returns the refinement over the padded time axis; leaves the engine options alone |
| World.CheapTrick | src/world.ts:288-299 | succeeds exactly when the time axis fits and the FFT size is non-negative; each failure is named (too-long slot, abort, missing row, invalid number); the spectrogram is full, F0-length by fft/2+1, and cell (i, j) is CheapTrick of x, the time axis padded to F0's length, and F0 |
| World.D4C | src/world.ts:300-310 | succeeds exactly when the time axis fits and the width can hold the rows; returns a full F0-length by width aperiodicity whose cell (i, j) is D4C of x, the time axis padded to F0's length, and F0 |
| World.Wav2World | src/world.ts:311-317 | succeeds exactly when DIO's frame count and the FFT size are non-negative, and a negative frame count raises the abort; all parts have DIO's frame count; the time axis is DIO's, F0 is StoneMask's refinement of DIO's F0, and the spectrogram and aperiodicity are CheapTrick's and D4C's of x over those, full with width fft/2+1 |
| World.Spectra | src/world.ts:312-316 | the calls after DIO succeed exactly when the FFT size is non-negative, keep DIO's time axis, refine its F0, and compute the spectrogram and aperiodicity from the refined F0 |
| World.SynthesisInputs | src/world.ts:329 | slots 0 and 1 are empty and slots 2 to 4 hold F0, spectrogram and aperiodicity |
| World.Synthesis | src/world.ts:318-335 | mismatched frames and mismatched widths are refused before the engine runs; on matching full inputs, it succeeds exactly when there is no abort and the output length is non-negative; the output has that length, and sample i is the synthesis of exactly the caller's F0, spectrogram and aperiodicity |
| World.SynthesisReads | src/main.cpp:248-249 | full matrices at their own width are always readable by the engine |
| Engine.FullReadsBack | src/world.ts:190-197 | a full matrix read at its own row count and width reaches the engine unchanged |
| World.SynthesisChecksFirst | src/world.ts:321-328 | with mismatched inputs the outcome does not depend on the engine at all, and is an error |
| World.Wav2WorldResynthesises | src/world.ts:311-335 | the analysis result always passes synthesis's shape checks, the engine recovers the same width, and synthesis then succeeds exactly when the output length is non-negative |
| World.FileTable | src/world.ts:339-342 | the call's table has an empty 8-byte standard output and the given data file at descriptor 3 |
| World.Report | src/world.ts:351 | the error is the printed text, or "Unknown Error" exactly when nothing was printed |
| World.FirstPrint | src/world.ts:351 | after one print into the fresh standard output, the error carries exactly that text |
| World.ReadWav | src/world.ts:336-350 | the engine decodes exactly when the length and the rate are positive, into slot 0 only; a non-positive length leaves its report as the error |
| World.WavReadAsWritten | src/world.ts:336-355 | as written, `wavread` never returns: with a decoded signal it fails reading the missing metadata slot |
| World.ReadMeta | src/world.ts:347-348 | the metadata read succeeds exactly when slot 1 is present |
| World.WavRead | src/world.ts:336-355 | corrected, `wavread` returns samples and rate exactly when length and rate are positive; otherwise the codec's report, or "Unknown Error" when there is none |
| World.WavWrite | src/world.ts:356-372 | returns exactly the encoded bytes when there are any, and "Unknown Error" otherwise |
| World.EncodingWritten | src/world.ts:359-368 | the data file is non-empty exactly when the encoding is, and then holds exactly the encoding |

## Left out

- The numeric algorithms are opaque functions of `Engine.Numerics`. These are
  DIO, Harvest, StoneMask, CheapTrick, D4C, synthesis, the FFT size, the frame
  counts and the WAV codec. The WORLD library and `tools/audioio` are not part
  of this model.
- Floating point: doubles are carried as their 64 bits and never computed
  with.
- The output length `_synthesis` computes, `(f0_length - 1) * frame_period / 1000.0 * fs + 1`,
  is the opaque `synthesisLength`, because it is floating-point arithmetic.
- `_init`'s `f0_floor` / `f0_ceil` branches: every call site passes 0 for
  both, so only the reset path is modelled.
- The host calls the initialiser as `_init_world`, while `src/main.cpp`
  exports `_init`. The model assumes the two are the same export.
- Decoding of iovec arrays from linear memory, 32-bit pointer arithmetic,
  and BigInt conversion in `fd_seek`: regions are given as (start, length)
  pairs.
- `fd_fdstat_get`, `fd_fdstat_set_flags`, `proc_exit` and
  `emscripten_notify_memory_growth`: they touch no state the model keeps.
- `about()`, `memorySize`, `getText`'s UTF-8 decoding and `trim`, and `Blob`
  construction. Text is its bytes.
- The codec's own reads and seeks on descriptor 3, and anything it prints
  while encoding. `_wavwrite`'s result is taken to be the encoding written
  at position 0.
- The `nbit` value: the engine never exports it, see "## Findings".
- `world-async.ts`, `worker.js`, `loader.ts`, `main.ts` and `vite.config.ts`:
  worker messaging, loading and the demo page are outside the bridge.
- The factory's asynchronous instantiation: the model starts from an
  instance.
- Object identity of views beyond the storage `id`, and `Object.freeze`.
- `Ndarray.Create`: text shapes are modelled only when made of digits and
  commas. `Number` of any other piece, such as NaN or a fraction, is not
  modelled.
- Engine.ReadVec: a slot holds a flat array, a matrix or nothing. Other
  JavaScript values a caller could place in the context are not modelled,
  and JavaScript's ToNumber of a matrix row is the opaque `rowNumber`.
- Engine.ReadVec: what an uninitialised engine array holds past a shorter
  copied slot is a single opaque value `junk`, not arbitrary memory. The
  same holds for `Engine.ReadMat`'s rows.
- Ndarray.Create: sizes are natural numbers. A negative or fractional
  product makes `new Ctor(n)` throw a RangeError (`src/ndarray.ts:86` and
  `:92`); that error is not modelled.
- Engine.EngineSynthesis: the 32-bit `int` parameters of the engine exports
  are unbounded integers. Wrap-around for values of 2^31 and above, and
  JavaScript numbers above 2^53, are not modelled.
- Every integer argument of an engine export (`fs`, `x_length`, `f0_length`,
  `fft_size`, `frame_period`) is taken to be an integer already. ToInt32's
  truncation of a fractional value on the way in is not modelled.
- World.Synthesis: `frame_period` is taken as an integer, because the engine
  export declares it `int`. The truncation of a fractional period on the
  way in is not modelled.
- VirtualFile.Read: the bytes copied into memory are stated for a single
  region (`ReadOneRegion`). For several regions only the count and the new
  position are stated.
- Engine.EngineHarvest: the frame count uses the DIO frame period, as the
  code does. The effect of the mismatch inside Harvest, which writes frames
  according to its own period, is not modelled, because Harvest is opaque.

## Findings

| source | as written | input that shows it | evidently intended | confidence | as-written member | corrected member |
|---|---|---|---|---|---|---|
| src/ndarray.ts:111-120 | a negative `begin` is made relative once by hand and then again by `Array.prototype.slice`, while the offset uses the once-adjusted value; a `begin` past the row count is clamped by `slice` but not in the offset | a 3x2 view, `subarray(-5, 3)`: rows 1 and 2 are kept, but the offset is -4 and the shape [2, 2], so `toBuffer` and `pack` see no elements; `subarray(4, 3)`: no rows, but the offset is 8, past the view's end, so a later `reshape` reads past it | `begin` clamped once, as `slice` does, so the rows, shape and offset agree, and an empty subarray past the end sits at the view's end | not executed; follows from the ECMAScript `slice` and `subarray` clamping rules | Ndarray.SubarrayAsWritten, Ndarray.SubarrayAsWrittenLosesElements, Ndarray.AsWrittenSubarrayPastEnd | Ndarray.Subarray, Ndarray.SubarrayElements |
| src/world.ts:213-216 | `currentInstance` is cleared only after the constructor returns | an instance whose `_initialize` traps: the token stays set, and `new World(instance)` then passes the guard from anywhere; it constructs a world if `_initialize` does not trap again, and that world still fails any call that reaches an import, because the imports read the factory's `that` (lines 140, 179, 214), which was never initialised | the token cleared whether or not construction throws | not executed | World.CreateWorldAsWritten, World.FactoryLeaksToken | World.CreateWorld, World.FactoryGuards |
| src/world.ts:347-348 | `wavread` reads `nbit` from context slot 1, which `_wavread` never writes | any WAV the codec decodes with positive length and rate: `meta` is undefined, so reading `meta[1]` throws a TypeError instead of returning | the samples and rate returned, and `nbit` taken from the engine | not executed; assumes the codec (`tools/audioio`, not part of this model) never writes slot 1 | World.WavReadAsWritten | World.WavRead |

=== FILE: common.dfy ===
/** Shared vocabulary of the bridge model: results, bytes, and the faults that
    the host's import functions raise as exceptions. */
module Common {

  /** A value or the exception that aborted the computation. */
  datatype Result<+T, +E> = Ok(value: T) | Err(error: E) {
    predicate IsFailure() {
      Err?
    }

    function PropagateFailure<U>(): Result<U, E>
      requires Err?
    {
      Err(error)
    }

    function Extract(): T
      requires Ok?
    {
      value
    }
  }

  datatype Option<+T> = None | Some(value: T)

  /** One octet of a byte store or of the engine's linear memory. */
  newtype byte = b: int | 0 <= b < 256

  /** Exceptions raised on the host side while the engine is running. */
  datatype Fault =
    | NoDescriptorTable      // the descriptor table is null outside file operations
    | ViewOutOfBounds        // a byte view over linear memory does not fit
    | NegativeViewLength     // a short read past the end builds a negative-length view
    | SlotUnusable(slot: nat)    // the slot holds nothing, or not an array of the needed rank
    | SlotTooLong(slot: nat)     // copying the slot would overflow the engine's array
    | MissingRow(slot: nat)      // a two-dimensional array has fewer rows than requested
    | Abort                  // the engine could not allocate an array of negative size

  function Zeros(n: nat): (r: seq<byte>)
    ensures |r| == n
    ensures forall i :: 0 <= i < n ==> r[i] == 0
  {
    seq(n, _ => 0)
  }

  function Min(a: int, b: int): int {
    if a <= b then a else b
  }

  function Max(a: int, b: int): int {
    if a >= b then a else b
  }
}

=== FILE: engine.dfy ===
/** The engine's exported entry points and the host imports they call.
    Arrays cross the boundary through a slot table (`context` on the host
    side): the engine copies a slot into its own memory with
    `readFloat64Array`/`readFloat64Array2D` and publishes results with
    `writeFloat64Array`/`writeFloat64Array2D`. The numeric algorithms and the
    audio codec are opaque: a `Numerics` value supplies them, each as an index
    function from its inputs to one output element, so only the slots they
    touch and the lengths and widths of what they produce are modelled. */
module Engine {
  import opened Common
  import opened VirtualFile
  import opened WasiShims
  import PathRouting
  import Ndarray

  /** A double, as its 64 bits; nothing here does floating-point arithmetic. */
  type F64 = bv64

  /** What the host keeps in one slot: a flat float64 array, or a
      two-dimensional view of announced shape [rows, cols] and the rows it
      actually has. */
  datatype Slot =
    | Vec(v: seq<F64>)
    | Mat(rows: nat, cols: int, data: seq<seq<F64>>)

  type Context = map<nat, Slot>

  /** A two-dimensional slot that has every row it announces, each exactly
      `cols` long: what the engine's own writes produce. */
  predicate Full(s: Slot) {
    && s.Mat?
    && |s.data| == s.rows
    && forall i :: 0 <= i < |s.data| ==> |s.data[i]| == s.cols
  }

  /** The slot numbers of the call protocol. */
  const SignalSlot: nat := 0
  const TimeSlot: nat := 1
  const F0Slot: nat := 2
  const SpectrogramSlot: nat := 3
  const AperiodicitySlot: nat := 4

  /** The engine's option globals that outlive a call. */
  datatype Options = Options(dioPeriod: F64, harvestPeriod: F64, fft: int)

  /** The opaque numeric algorithms and codec. `junk` stands for whatever an
      uninitialised engine array holds where a shorter slot was copied in.
      `rowNumber` is JavaScript's ToNumber of a row array: the element of a
      one-element row, 0 for an empty one, NaN otherwise. The frame counts
      are C `int`s. */
  datatype Numerics = Numerics(
    junk: F64,
    rowNumber: seq<F64> -> F64,
    defaultPeriod: F64,
    fftFor: int -> int,
    dioFrames: (int, nat, F64) -> int,
    harvestFrames: (int, nat, F64) -> int,
    dio: (seq<F64>, int, F64, nat) -> (F64, F64),
    harvest: (seq<F64>, int, F64, nat) -> (F64, F64),
    stoneMask: (seq<F64>, int, seq<F64>, seq<F64>, nat) -> F64,
    cheapTrick: (seq<F64>, int, seq<F64>, seq<F64>, int, nat, nat) -> F64,
    d4c: (seq<F64>, int, seq<F64>, seq<F64>, int, nat, nat) -> F64,
    synthesisLength: (nat, int, int, int) -> int,
    synthesis: (seq<F64>, seq<seq<F64>>, seq<seq<F64>>, int, int, int, nat) -> F64,
    audioLength: Option<seq<byte>> -> int,
    lengthReport: Option<seq<byte>> -> seq<byte>,
    wavRate: Option<seq<byte>> -> int,
    wavSample: (Option<seq<byte>>, nat, nat) -> F64,
    readReport: Option<seq<byte>> -> seq<byte>,
    wavEncode: (seq<F64>, int) -> seq<byte>)

  /** C division of `int`s, which truncates toward zero. */
  function CDiv(a: int, b: int): (q: int)
    requires b > 0
    ensures a >= 0 ==> q == a / b
    ensures a < 0 ==> q == -((-a) / b)
  {
    if a >= 0 then a / b else -((-a) / b)
  }

  /** `fft_size / 2 + 1`: the row width of spectra for an FFT size. */
  function Width(fft: int): int {
    CDiv(fft, 2) + 1
  }

  /** The host derives `fft_size = (w - 1) * 2` from a width `w`; the engine
      recovers exactly `w`, negative or not. */
  lemma WidthRoundTrip(w: int)
    ensures Width((w - 1) * 2) == w
  {
    if w - 1 < 0 {
      assert -((w - 1) * 2) == (1 - w) * 2;
      assert ((1 - w) * 2) / 2 == 1 - w;
    } else {
      assert ((w - 1) * 2) / 2 == w - 1;
    }
  }

  /** An engine array of `n` elements after copying `v` into it. */
  function Pad(v: seq<F64>, n: nat, junk: F64): (r: seq<F64>)
    requires |v| <= n
    ensures |r| == n && r[..|v|] == v
    ensures forall i :: |v| <= i < n ==> r[i] == junk
  {
    v + seq(n - |v|, _ => junk)
  }

  /** A source already of the full length is copied as it is. */
  lemma PadExact(v: seq<F64>, junk: F64)
    ensures Pad(v, |v|, junk) == v
  {
    var r := Pad(v, |v|, junk);
    assert r == r[..|v|];
  }

  /** The numbers `set` copies out of a slot it is handed: a flat array's
      elements, or, from a two-dimensional view, each row converted by
      ToNumber. */
  function SetSource(s: Slot, e: Numerics): (r: seq<F64>)
    ensures s.Vec? ==> r == s.v
    ensures s.Mat? ==> |r| == |s.data| && forall i :: 0 <= i < |s.data| ==> r[i] == e.rowNumber(s.data[i])
  {
    match s
    case Vec(v) => v
    case Mat(_, _, data) => seq(|data|, i requires 0 <= i < |data| => e.rowNumber(data[i]))
  }

  /** `readFloat64Array(k, ptr, n)`: `set` throws a TypeError on an empty
      slot and a RangeError when the slot has more elements than the engine
      array; a two-dimensional slot is read as the ToNumber of each row. */
  function ReadVec(ctx: Context, k: nat, n: nat, e: Numerics): (r: Result<seq<F64>, Fault>)
    ensures r.Ok? <==> k in ctx && |SetSource(ctx[k], e)| <= n
    ensures k !in ctx ==> r == Err(SlotUnusable(k))
    ensures k in ctx && |SetSource(ctx[k], e)| > n ==> r == Err(SlotTooLong(k))
    ensures r.Ok? ==> var src := SetSource(ctx[k], e);
      && |r.value| == n && r.value[..|src|] == src
      && forall i :: |src| <= i < n ==> r.value[i] == e.junk
  {
    if k !in ctx then Err(SlotUnusable(k))
    else
      var src := SetSource(ctx[k], e);
      if |src| > n then Err(SlotTooLong(k))
      else Ok(Pad(src, n, e.junk))
  }

  /** Reading a flat slot into an array of exactly its length copies it
      whole. */
  lemma ReadVecExact(ctx: Context, k: nat, e: Numerics)
    requires k in ctx && ctx[k].Vec?
    ensures ReadVec(ctx, k, |ctx[k].v|, e) == Ok(ctx[k].v)
  {
    var r := ReadVec(ctx, k, |ctx[k].v|, e).value;
    assert r == r[..|ctx[k].v|];
  }

  /** `writeFloat64Array(k, ptr, n)`: the slot becomes a fresh copy. */
  function WriteVec(ctx: Context, k: nat, v: seq<F64>): (c: Context)
    ensures k in c && c[k] == Vec(v)
    ensures forall j :: j != k ==> (j in c <==> j in ctx) && (j in ctx ==> c[j] == ctx[j])
  {
    ctx[k := Vec(v)]
  }

  /** Rows `i` up to `x` of a two-dimensional slot, each copied into an
      engine row of `y` elements, failing at the first row that is missing or
      too long. */
  function RowsFrom(data: seq<seq<F64>>, k: nat, i: nat, x: nat, y: int, junk: F64): (r: Result<seq<seq<F64>>, Fault>)
    requires i <= x
    ensures r.Ok? <==> RowsFit(data, i, x, y)
    ensures r.Ok? ==> |r.value| == x - i && Copied(data, i, y, junk, r.value)
    ensures r.Err? ==> r.error == MissingRow(k) || r.error == SlotTooLong(k)
    decreases x - i
  {
    if i == x then Ok([])
    else if i >= |data| then Err(MissingRow(k))
    else if |data[i]| > y then Err(SlotTooLong(k))
    else
      var rest := RowsFrom(data, k, i + 1, x, y, junk);
      if rest.Err? then Err(rest.error)
      else
        var rows := [Pad(data[i], y, junk)] + rest.value;
        assert rows[1..] == rest.value;
        Ok(rows)
  }

  /** Rows `i` up to `x` all exist and are at most `y` long. */
  predicate RowsFit(data: seq<seq<F64>>, i: nat, x: nat, y: int)
    decreases x - i
  {
    i >= x || (i < |data| && |data[i]| <= y && RowsFit(data, i + 1, x, y))
  }

  /** A full slot's rows all fit an engine row of its own width. */
  lemma {:induction false} FullRowsFit(s: Slot, i: nat, x: nat)
    requires Full(s) && x <= s.rows
    ensures RowsFit(s.data, i, x, s.cols)
    decreases x - i
  {
    if i < x {
      FullRowsFit(s, i + 1, x);
    }
  }

  /** `rows` are rows `i`, `i + 1`, ... of `data`, each padded to `y`. */
  predicate Copied(data: seq<seq<F64>>, i: nat, y: int, junk: F64, rows: seq<seq<F64>>)
    decreases |rows|
  {
    |rows| == 0
    || (&& i < |data| && |data[i]| <= y
        && rows[0] == Pad(data[i], y, junk)
        && Copied(data, i + 1, y, junk, rows[1..]))
  }

  /** Row `j` of a copy is row `i + j` of the slot, padded. */
  lemma {:induction false} CopiedAt(data: seq<seq<F64>>, i: nat, y: int, junk: F64, rows: seq<seq<F64>>, j: nat)
    requires Copied(data, i, y, junk, rows) && j < |rows|
    ensures i + j < |data| && |data[i + j]| <= y && rows[j] == Pad(data[i + j], y, junk)
    decreases j
  {
    if j > 0 {
      CopiedAt(data, i + 1, y, junk, rows[1..], j - 1);
    }
  }

  /** `readFloat64Array2D(k, ptr, x, y)`: nothing is read when `x` is 0.
      Otherwise engine row `i` is `set` from `array[i]`. The engine row's
      view is made first, so a negative width is a RangeError before the
      slot is looked at; then an empty slot has no index (a TypeError), a
      missing row is undefined (a TypeError), and a row too long is a
      RangeError. Of a flat
      slot, `array[i]` is a number, from which `set` copies nothing, so the
      engine row keeps what it held. */
  function ReadMat(ctx: Context, k: nat, x: nat, y: int, junk: F64): (r: Result<seq<seq<F64>>, Fault>)
    ensures x == 0 ==> r == Ok([])
    ensures x > 0 && y < 0 ==> r == Err(ViewOutOfBounds)
    ensures x > 0 && y >= 0 && k !in ctx ==> r == Err(SlotUnusable(k))
    ensures r.Ok? <==> x == 0 || (&& k in ctx && y >= 0
                                  && (ctx[k].Mat? ==> RowsFit(ctx[k].data, 0, x, y))
                                  && (ctx[k].Vec? ==> x <= |ctx[k].v|))
    ensures r.Ok? ==> |r.value| == x
    ensures r.Ok? && x > 0 && ctx[k].Mat? ==> Copied(ctx[k].data, 0, y, junk, r.value)
    ensures r.Ok? && x > 0 && ctx[k].Vec? ==> forall i :: 0 <= i < x ==> r.value[i] == Pad([], y, junk)
  {
    if x == 0 then Ok([])
    else if y < 0 then Err(ViewOutOfBounds)
    else if k !in ctx then Err(SlotUnusable(k))
    else
      match ctx[k]
      case Mat(_, _, data) => RowsFrom(data, k, 0, x, y, junk)
      case Vec(v) =>
        if |v| < x then Err(MissingRow(k))
        else Ok(seq(x, _ => Pad([], y, junk)))
  }

  /** A full matrix read at its own row count and width comes back
      unchanged: every row already fills the engine's row. */
  lemma FullReadsBack(ctx: Context, k: nat, junk: F64)
    requires k in ctx && Full(ctx[k]) && !AllocationAborts(ctx[k].rows, ctx[k].cols)
    ensures ReadMat(ctx, k, ctx[k].rows, ctx[k].cols, junk) == Ok(ctx[k].data)
  {
    var s := ctx[k];
    if s.rows > 0 {
      FullRowsFit(s, 0, s.rows);
      var r := ReadMat(ctx, k, s.rows, s.cols, junk).value;
      forall j | 0 <= j < s.rows ensures r[j] == s.data[j] {
        CopiedAt(s.data, 0, s.cols, junk, r, j);
        PadExact(s.data[j], junk);
      }
      assert r == s.data;
    } else {
      assert s.data == [];
    }
  }

  /** `writeFloat64Array2D(k, ptr, x, y)`: the slot becomes
      `Ndarray.create('float64', [x, y])` and each of its `x` rows receives an
      engine row. A zero width gives a view without rows, so the first row
      is missing. */
  function WriteMat(ctx: Context, k: nat, x: nat, y: int, cell: (nat, nat) -> F64): (r: Result<Context, Fault>)
    ensures r.Ok? <==> x == 0 || y > 0
    ensures x > 0 && y == 0 ==> r == Err(MissingRow(k))
    ensures r.Ok? ==> k in r.value && Full(r.value[k]) && r.value[k].rows == x && r.value[k].cols == y
    ensures r.Ok? ==> var m := r.value[k];
      && |m.data| == x
      && forall i :: 0 <= i < x ==> |m.data[i]| == y && forall j :: 0 <= j < y ==> m.data[i][j] == cell(i, j)
    ensures r.Ok? ==> forall j :: j != k ==> (j in r.value <==> j in ctx) && (j in ctx ==> r.value[j] == ctx[j])
  {
    if x > 0 && y < 0 then Err(ViewOutOfBounds)
    else
      NewRowsFull(x, y);
      if x > 0 && Ndarray.RowCount(x, 0, y, x * y) < x then Err(MissingRow(k))
      else
      var w: nat := if y < 0 then 0 else y;
      Ok(ctx[k := Mat(x, y, seq(x, i requires 0 <= i < x => seq(w, j requires 0 <= j < w => cell(i, j))))])
  }

  /** A fresh `[x, y]` view of `x * y` elements has all `x` rows exactly when
      `y` is positive or there are no rows to have. */
  lemma NewRowsFull(x: nat, y: int)
    requires x > 0 ==> y >= 0
    ensures x > 0 ==> (Ndarray.RowCount(x, 0, y, x * y) == x <==> y > 0)
  {
    if x > 0 {
      var n := Ndarray.RowCount(x, 0, y, x * y);
      if y > 0 {
        forall i | 0 <= i < x ensures Ndarray.RowStart(0, y, i) < x * y {
          Ndarray.RowStartBelow(i, x, y);
        }
        Ndarray.RowCountFull(x, 0, y, x * y);
      } else {
        assert Ndarray.RowStart(0, y, 0) == 0;
      }
    }
  }

  /** `new double*[x]` followed by `new double[w]` per row: a negative width
      aborts as soon as there is a row to allocate. */
  predicate AllocationAborts(rows: nat, width: int) {
    rows > 0 && width < 0
  }

  /** `_init(fs, 0, 0)`: every option back to its default, with the FFT size
      for `fs`, which is also returned. */
  function Init(e: Numerics, fs: int): (r: (Options, int))
    ensures r.0.fft == r.1 == e.fftFor(fs)
    ensures r.0.dioPeriod == r.0.harvestPeriod == e.defaultPeriod
  {
    (Options(e.defaultPeriod, e.defaultPeriod, e.fftFor(fs)), e.fftFor(fs))
  }

  /** Frame `i` of DIO on signal `x`: its time and its f0 estimate. */
  function DioFrame(e: Numerics, x: seq<F64>, fs: int, period: F64): nat -> (F64, F64) {
    (i: nat) => e.dio(x, fs, period, i)
  }

  /** Frame `i` of Harvest on signal `x`. */
  function HarvestFrame(e: Numerics, x: seq<F64>, fs: int, period: F64): nat -> (F64, F64) {
    (i: nat) => e.harvest(x, fs, period, i)
  }

  /** The time axis and f0 an estimator produces for `n` frames. */
  function Axis(n: nat, frame: nat -> (F64, F64)): (t: seq<F64>)
    ensures |t| == n && forall i :: 0 <= i < n ==> t[i] == frame(i).0
  {
    seq(n, i requires 0 <= i < n => frame(i).0)
  }

  function Contour(n: nat, frame: nat -> (F64, F64)): (f0: seq<F64>)
    ensures |f0| == n && forall i :: 0 <= i < n ==> f0[i] == frame(i).1
  {
    seq(n, i requires 0 <= i < n => frame(i).1)
  }

  function Refine(e: Numerics, x: seq<F64>, fs: int, t: seq<F64>, f0: seq<F64>, n: nat): (r: seq<F64>)
    ensures |r| == n && forall i :: 0 <= i < n ==> r[i] == e.stoneMask(x, fs, t, f0, i)
  {
    seq(n, i requires 0 <= i < n => e.stoneMask(x, fs, t, f0, i))
  }

  /** What an f0 estimator leaves behind: the time axis in slot 1 and f0,
      refined iff asked, in slot 2, both `n` long, every other slot as it
      was. */
  ghost predicate EstimatorEffect(e: Numerics, ctx: Context, c: Context, x: seq<F64>, fs: int, n: nat,
                                  frame: nat -> (F64, F64), refine: bool)
  {
    var t := Axis(n, frame);
    var f0 := Contour(n, frame);
    && TimeSlot in c && F0Slot in c
    && c[TimeSlot] == Vec(t)
    && c[F0Slot] == Vec(if refine then Refine(e, x, fs, t, f0, n) else f0)
    && forall j :: j != TimeSlot && j != F0Slot ==> (j in c <==> j in ctx) && (j in ctx ==> c[j] == ctx[j])
  }

  /** The common tail of `_dio` and `_harvest`. */
  function Estimate(e: Numerics, ctx: Context, x: seq<F64>, fs: int, n: nat, frame: nat -> (F64, F64), flag: int): (c: Context)
    ensures EstimatorEffect(e, ctx, c, x, fs, n, frame, flag != 0)
  {
    var t := Axis(n, frame);
    var f0 := Contour(n, frame);
    var c1 := WriteVec(ctx, TimeSlot, t);
    if flag != 0 then WriteVec(c1, F0Slot, Refine(e, x, fs, t, f0, n)) else WriteVec(c1, F0Slot, f0)
  }

  /** `_dio(x_length, fs, frame_period, withStoneMask)`: after the signal is
      copied in, `new double[f0_length]` aborts the engine when the frame
      count is negative. */
  function EngineDio(e: Numerics, opts: Options, ctx: Context, xLen: nat, fs: int, period: F64, flag: int): (r: Result<(Context, Options), Fault>)
    ensures r.Ok? <==> ReadVec(ctx, SignalSlot, xLen, e).Ok? && e.dioFrames(fs, xLen, period) >= 0
    ensures ReadVec(ctx, SignalSlot, xLen, e).Ok? && e.dioFrames(fs, xLen, period) < 0 ==> r == Err(Abort)
    ensures r.Ok? ==> var x := ReadVec(ctx, SignalSlot, xLen, e).value;
      var n: nat := e.dioFrames(fs, xLen, period);
      && r.value.1 == opts.(dioPeriod := period)
      && EstimatorEffect(e, ctx, r.value.0, x, fs, n, DioFrame(e, x, fs, period), flag != 0)
  {
    var x :- ReadVec(ctx, SignalSlot, xLen, e);
    var n := e.dioFrames(fs, xLen, period);
    if n < 0 then Err(Abort)
    else Ok((Estimate(e, ctx, x, fs, n, DioFrame(e, x, fs, period), flag), opts.(dioPeriod := period)))
  }

  /** `_harvest(x_length, fs, frame_period, withStoneMask)`: the frame count
      is computed with the DIO option's frame period, not the one passed. */
  function EngineHarvest(e: Numerics, opts: Options, ctx: Context, xLen: nat, fs: int, period: F64, flag: int): (r: Result<(Context, Options), Fault>)
    ensures r.Ok? <==> ReadVec(ctx, SignalSlot, xLen, e).Ok? && e.harvestFrames(fs, xLen, opts.dioPeriod) >= 0
    ensures ReadVec(ctx, SignalSlot, xLen, e).Ok? && e.harvestFrames(fs, xLen, opts.dioPeriod) < 0 ==> r == Err(Abort)
    ensures r.Ok? ==> var x := ReadVec(ctx, SignalSlot, xLen, e).value;
      var n: nat := e.harvestFrames(fs, xLen, opts.dioPeriod);
      && r.value.1 == opts.(harvestPeriod := period)
      && EstimatorEffect(e, ctx, r.value.0, x, fs, n, HarvestFrame(e, x, fs, period), flag != 0)
  {
    var x :- ReadVec(ctx, SignalSlot, xLen, e);
    var n := e.harvestFrames(fs, xLen, opts.dioPeriod);
    if n < 0 then Err(Abort)
    else Ok((Estimate(e, ctx, x, fs, n, HarvestFrame(e, x, fs, period), flag), opts.(harvestPeriod := period)))
  }

  /** The three inputs every analysis entry point copies in: the signal
      from slot 0, then the time axis and f0 from slots 1 and 2. */
  function ReadInputs(e: Numerics, ctx: Context, xLen: nat, n: nat): (r: Result<(seq<F64>, seq<F64>, seq<F64>), Fault>)
    ensures r.Ok? <==> && ReadVec(ctx, SignalSlot, xLen, e).Ok?
                       && ReadVec(ctx, TimeSlot, n, e).Ok?
                       && ReadVec(ctx, F0Slot, n, e).Ok?
    ensures r.Ok? ==> && r.value.0 == ReadVec(ctx, SignalSlot, xLen, e).value
                      && r.value.1 == ReadVec(ctx, TimeSlot, n, e).value
                      && r.value.2 == ReadVec(ctx, F0Slot, n, e).value
    ensures r.Err? ==> r.error in {SlotUnusable(SignalSlot), SlotTooLong(SignalSlot), SlotUnusable(TimeSlot),
                                   SlotTooLong(TimeSlot), SlotUnusable(F0Slot), SlotTooLong(F0Slot)}
  {
    var x :- ReadVec(ctx, SignalSlot, xLen, e);
    var t :- ReadVec(ctx, TimeSlot, n, e);
    var f0 :- ReadVec(ctx, F0Slot, n, e);
    Ok((x, t, f0))
  }

  /** `_stonemask(x_length, fs, f0_length)`: slot 2 is replaced by the
      refined f0, `f0_length` long. */
  function EngineStoneMask(e: Numerics, ctx: Context, xLen: nat, fs: int, n: nat): (r: Result<Context, Fault>)
    ensures r.Ok? <==> ReadInputs(e, ctx, xLen, n).Ok?
    ensures r.Ok? ==> var (x, t, f0) := ReadInputs(e, ctx, xLen, n).value;
      r.value == WriteVec(ctx, F0Slot, Refine(e, x, fs, t, f0, n))
  {
    var (x, t, f0) :- ReadInputs(e, ctx, xLen, n);
    Ok(WriteVec(ctx, F0Slot, Refine(e, x, fs, t, f0, n)))
  }

  /** `_cheaptrick(x_length, fs, f0_length)`: the FFT size for `fs` becomes
      the option and is returned; slot 3 receives an `f0_length` by
      `fft_size / 2 + 1` spectrogram. */
  function EngineCheapTrick(e: Numerics, opts: Options, ctx: Context, xLen: nat, fs: int, n: nat): (r: Result<(Context, Options, int), Fault>)
    ensures var fft := e.fftFor(fs);
      && (r.Ok? <==> ReadInputs(e, ctx, xLen, n).Ok? && (n == 0 || Width(fft) > 0))
      && (ReadInputs(e, ctx, xLen, n).Ok? && AllocationAborts(n, Width(fft)) ==> r == Err(Abort))
      && (r.Ok? ==> var c := r.value.0;
           && r.value.1 == opts.(fft := fft) && r.value.2 == fft
           && SpectrogramSlot in c && Full(c[SpectrogramSlot])
           && c[SpectrogramSlot].rows == n && c[SpectrogramSlot].cols == Width(fft)
           && |c[SpectrogramSlot].data| == n
           && forall j :: j != SpectrogramSlot ==> (j in c <==> j in ctx) && (j in ctx ==> c[j] == ctx[j]))
    ensures r.Ok? ==> var (x, t, f0) := ReadInputs(e, ctx, xLen, n).value;
      var fft := e.fftFor(fs);
      var sp := r.value.0[SpectrogramSlot];
      forall i, j :: 0 <= i < n && 0 <= j < Width(fft) ==> sp.data[i][j] == e.cheapTrick(x, fs, t, f0, fft, i, j)
  {
    var (x, t, f0) :- ReadInputs(e, ctx, xLen, n);
    var fft := e.fftFor(fs);
    var w := Width(fft);
    if AllocationAborts(n, w) then Err(Abort)
    else
      var c :- WriteMat(ctx, SpectrogramSlot, n, w, (i: nat, j: nat) => e.cheapTrick(x, fs, t, f0, fft, i, j));
      Ok((c, opts.(fft := fft), fft))
  }

  /** `_d4c(x_length, fs, f0_length, fft_size)`: a size of 0 or less is
      replaced by the FFT size for `fs`; slot 4 receives an `f0_length` by
      `fft_size / 2 + 1` aperiodicity. */
  function EngineD4C(e: Numerics, ctx: Context, xLen: nat, fs: int, n: nat, fftArg: int): (r: Result<Context, Fault>)
    ensures var fft := if fftArg <= 0 then e.fftFor(fs) else fftArg;
      && (r.Ok? <==> ReadInputs(e, ctx, xLen, n).Ok? && (n == 0 || Width(fft) > 0))
      && (ReadInputs(e, ctx, xLen, n).Ok? && AllocationAborts(n, Width(fft)) ==> r == Err(Abort))
      && (r.Ok? ==>
           && AperiodicitySlot in r.value && Full(r.value[AperiodicitySlot])
           && r.value[AperiodicitySlot].rows == n && r.value[AperiodicitySlot].cols == Width(fft)
           && |r.value[AperiodicitySlot].data| == n
           && forall j :: j != AperiodicitySlot ==> (j in r.value <==> j in ctx) && (j in ctx ==> r.value[j] == ctx[j]))
    ensures r.Ok? ==> var (x, t, f0) := ReadInputs(e, ctx, xLen, n).value;
      var fft := if fftArg <= 0 then e.fftFor(fs) else fftArg;
      var ap := r.value[AperiodicitySlot];
      forall i, j :: 0 <= i < n && 0 <= j < Width(fft) ==> ap.data[i][j] == e.d4c(x, fs, t, f0, fft, i, j)
  {
    var (x, t, f0) :- ReadInputs(e, ctx, xLen, n);
    var fft := if fftArg <= 0 then e.fftFor(fs) else fftArg;
    var w := Width(fft);
    if AllocationAborts(n, w) then Err(Abort)
    else WriteMat(ctx, AperiodicitySlot, n, w, (i: nat, j: nat) => e.d4c(x, fs, t, f0, fft, i, j))
  }

  /** `_synthesis(f0_length, fft_size, fs, frame_period)`: reads f0 and the
      two `f0_length` by `fft_size / 2 + 1` arrays from slots 2, 3 and 4 and
      writes the waveform, of the length the engine computes, to slot 0. */
  function EngineSynthesis(e: Numerics, ctx: Context, n: nat, fft: int, fs: int, period: int): (r: Result<Context, Fault>)
    ensures AllocationAborts(n, Width(fft)) ==> r == Err(Abort)
    ensures r.Ok? <==> && !AllocationAborts(n, Width(fft))
                       && ReadVec(ctx, F0Slot, n, e).Ok?
                       && ReadMat(ctx, SpectrogramSlot, n, Width(fft), e.junk).Ok?
                       && ReadMat(ctx, AperiodicitySlot, n, Width(fft), e.junk).Ok?
                       && e.synthesisLength(n, fft, fs, period) >= 0
    ensures r.Ok? ==>
      && SignalSlot in r.value && r.value[SignalSlot].Vec?
      && |r.value[SignalSlot].v| == e.synthesisLength(n, fft, fs, period)
      && forall j :: j != SignalSlot ==> (j in r.value <==> j in ctx) && (j in ctx ==> r.value[j] == ctx[j])
    ensures r.Ok? ==>
      var f0 := ReadVec(ctx, F0Slot, n, e).value;
      var sp := ReadMat(ctx, SpectrogramSlot, n, Width(fft), e.junk).value;
      var ap := ReadMat(ctx, AperiodicitySlot, n, Width(fft), e.junk).value;
      var y := r.value[SignalSlot].v;
      forall i :: 0 <= i < |y| ==> y[i] == e.synthesis(f0, sp, ap, fft, period, fs, i)
  {
    var w := Width(fft);
    if AllocationAborts(n, w) then Err(Abort)
    else
      var f0 :- ReadVec(ctx, F0Slot, n, e);
      var sp :- ReadMat(ctx, SpectrogramSlot, n, w, e.junk);
      var ap :- ReadMat(ctx, AperiodicitySlot, n, w, e.junk);
      var yLen := e.synthesisLength(n, fft, fs, period);
      if yLen < 0 then Err(Abort)
      else
        var y := seq(yLen, i requires 0 <= i < yLen => e.synthesis(f0, sp, ap, fft, period, fs, i));
        Ok(WriteVec(ctx, SignalSlot, y))
  }

  /** The bytes of the data file as the codec sees them through descriptor
      3, if the table has that file. */
  function DataFile(fds: FdTable): (d: Option<seq<byte>>)
    requires TableValid(fds)
    ensures d.Some? <==> fds.Open? && !Missing(fds, PathRouting.DataFd)
  {
    if fds.Open? && !Missing(fds, PathRouting.DataFd) then Some(Data(FileAt(fds, PathRouting.DataFd))) else None
  }

  /** The table has a file behind standard output. */
  predicate HasStdout(fds: FdTable) {
    fds.Open? && !Missing(fds, PathRouting.StdoutFd)
  }

  /** Text the codec prints to standard output, appended to descriptor 1. */
  function Print(fds: FdTable, text: seq<byte>): (r: Result<FdTable, Fault>)
    requires TableValid(fds)
    ensures |text| == 0 ==> r == Ok(fds)
    ensures r.Ok? ==> TableValid(r.value) && (fds.Open? <==> r.value.Open?)
    ensures r.Ok? && fds.Open? && |text| > 0 && !Missing(fds, PathRouting.StdoutFd) ==>
      !Missing(r.value, PathRouting.StdoutFd) &&
      WriteEffect(FileAt(fds, PathRouting.StdoutFd), FileAt(r.value, PathRouting.StdoutFd), text)
    ensures r.Ok? && fds.Open? ==>
      && |r.value.files| == |fds.files|
      && forall i :: 0 <= i < |fds.files| && i != PathRouting.StdoutFd ==> r.value.files[i] == fds.files[i]
    ensures fds.Closed? && |text| > 0 ==> r == Err(NoDescriptorTable)
    ensures fds.Open? ==> r.Ok?
    ensures r.Ok? && HasStdout(fds) ==> HasStdout(r.value)
  {
    if |text| == 0 then Ok(fds)
    else
      var reply :- FdWrite(fds, PathRouting.StdoutFd, text, [Region(0, |text|)]);
      assert AllFit([Region(0, |text|)], |text|);
      assert Gather(text, [Region(0, |text|)]) == text by {
        assert text[0..|text|] == text;
      }
      Ok(reply.fds)
  }

  /** `_wavreadlength()`: the sample count of `sample.wav`. */
  function EngineWavReadLength(e: Numerics, fds: FdTable): (r: Result<(FdTable, int), Fault>)
    requires TableValid(fds)
    ensures fds.Open? ==> r.Ok?
    ensures r.Ok? ==> TableValid(r.value.0) && r.value.1 == e.audioLength(DataFile(fds))
    ensures r.Ok? ==> DataFile(r.value.0) == DataFile(fds)
    ensures r.Ok? && HasStdout(fds) ==> var text := e.lengthReport(DataFile(fds));
      && HasStdout(r.value.0)
      && (|text| == 0 ==> r.value.0 == fds)
      && (|text| > 0 ==> WriteEffect(FileAt(fds, PathRouting.StdoutFd), FileAt(r.value.0, PathRouting.StdoutFd), text))
  {
    var data := DataFile(fds);
    var fds' :- Print(fds, e.lengthReport(data));
    Ok((fds', e.audioLength(data)))
  }

  /** `_wavread(x_length)`: decodes `sample.wav` into `x_length` samples,
      publishes them in slot 0 only when the rate is positive, and returns
      the rate. */
  function EngineWavRead(e: Numerics, ctx: Context, fds: FdTable, xLen: nat): (r: Result<(Context, FdTable, int), Fault>)
    requires TableValid(fds)
    ensures fds.Open? ==> r.Ok?
    ensures r.Ok? && HasStdout(fds) ==> HasStdout(r.value.1)
    ensures r.Ok? ==> var data := DataFile(fds); var fs := e.wavRate(data);
      && TableValid(r.value.1) && DataFile(r.value.1) == data && r.value.2 == fs
      && (fs > 0 ==> r.value.0 == WriteVec(ctx, SignalSlot, seq(xLen, i requires 0 <= i < xLen => e.wavSample(data, xLen, i))))
      && (fs <= 0 ==> r.value.0 == ctx)
  {
    var data := DataFile(fds);
    var fds' :- Print(fds, e.readReport(data));
    var fs := e.wavRate(data);
    var x := seq(xLen, i requires 0 <= i < xLen => e.wavSample(data, xLen, i));
    Ok((if fs > 0 then WriteVec(ctx, SignalSlot, x) else ctx, fds', fs))
  }

  /** `_wavwrite(x_length, fs)`: copies `x_length` samples from slot 0 and
      writes their encoding to `sample.wav`, that is descriptor 3. */
  function EngineWavWrite(e: Numerics, ctx: Context, fds: FdTable, xLen: nat, fs: int): (r: Result<FdTable, Fault>)
    requires TableValid(fds)
    ensures ReadVec(ctx, SignalSlot, xLen, e).Err? ==> r.Err?
    ensures ReadVec(ctx, SignalSlot, xLen, e).Ok? && fds.Open? && !Missing(fds, PathRouting.DataFd) ==> r.Ok?
    ensures r.Ok? ==> TableValid(r.value)
    ensures r.Ok? && fds.Open? ==>
      && r.value.Open? && |r.value.files| == |fds.files|
      && forall i :: 0 <= i < |fds.files| && i != PathRouting.DataFd ==> r.value.files[i] == fds.files[i]
    ensures r.Ok? && fds.Open? && !Missing(fds, PathRouting.DataFd) ==>
      var bytes := e.wavEncode(ReadVec(ctx, SignalSlot, xLen, e).value, fs);
      && r.value.Open? && !Missing(r.value, PathRouting.DataFd)
      && (|bytes| > 0 ==> WriteEffect(FileAt(fds, PathRouting.DataFd), FileAt(r.value, PathRouting.DataFd), bytes))
      && (|bytes| == 0 ==> r.value == fds)
  {
    var x :- ReadVec(ctx, SignalSlot, xLen, e);
    var bytes := e.wavEncode(x, fs);
    var fd := PathRouting.OpenAt(0, PathRouting.DataPath, 0);
    PathRouting.OpenAtFollowsTable(0, PathRouting.DataPath, 0);
    assert fd == PathRouting.DataFd by {
      assert PathRouting.KnownPaths[3] == PathRouting.DataPath;
    }
    if |bytes| == 0 then Ok(fds)
    else
      var reply :- FdWrite(fds, fd, bytes, [Region(0, |bytes|)]);
      assert AllFit([Region(0, |bytes|)], |bytes|);
      assert Gather(bytes, [Region(0, |bytes|)]) == bytes by {
        assert bytes[0..|bytes|] == bytes;
      }
      Ok(reply.fds)
  }
}

=== FILE: ndarray.dfy ===
/** Shaped views over one typed array (`Ndarray`). A view of rank one is the
    typed array itself or a subarray of it; a view of higher rank is a frozen
    array of row views that all share the flat buffer, together with the
    shape and the element offset at which the view starts. Row views are
    produced lazily while they start inside the buffer, so a view may have
    fewer rows than its shape announces. */
module Ndarray {
  import opened Common
  import opened TypedArrays
  import ShapeText

  datatype View =
    | Flat(a: TypedArray)
    | Nd(buffer: TypedArray, shape: seq<nat>, offset: int, rows: seq<View>)

  /** The shape argument of `create` and `reshape`. */
  datatype ShapeArg = Dims(dims: seq<nat>) | Text(text: string) | Number(n: nat)

  /** The element-type argument of `create`. */
  datatype Source = Tag(tag: string) | Ctor(dtype: Dtype) | Existing(typed: TypedArray)

  /** What `isNdarray` may be handed. */
  datatype Value = Arr(view: View) | NotArray

  /** `{ shape, dtype, buffer }`: a view flattened for transfer. */
  datatype Packed = Packed(shape: seq<nat>, dtype: string, buffer: TypedArray)

  /** The TypeError and RangeError the constructors raise. */
  datatype NdError = UnknownDtype(tag: string) | MisalignedBytes

  /** `shape.reduce(mul, 1)`. */
  function Product(shape: seq<nat>): nat {
    if |shape| == 0 then 1 else shape[0] * Product(shape[1..])
  }

  /** Elements per row of a view of this shape. */
  function Stride(shape: seq<nat>): nat
    requires |shape| >= 1
  {
    Product(shape[1..])
  }

  /** A one-dimensional shape holds as many elements as it announces. */
  lemma ProductOfOne(shape: seq<nat>)
    requires |shape| == 1
    ensures Product(shape) == shape[0]
  {
    assert shape[1..] == [];
  }

  /** Element offset at which row `i` starts. */
  function RowStart(offset: int, stride: nat, i: nat): int {
    offset + i * stride
  }

  function CountFrom(i: nat, n: nat, offset: int, stride: nat, len: nat): nat
    decreases n - i
  {
    if i < n && RowStart(offset, stride, i) < len then CountFrom(i + 1, n, offset, stride, len) else i
  }

  /** How many rows `xreshape` yields: it stops at `n` rows or at the first
      row that starts at or after the end of the buffer. */
  function RowCount(n: nat, offset: int, stride: nat, len: nat): (k: nat)
    ensures k <= n
    ensures forall j :: 0 <= j < k ==> RowStart(offset, stride, j) < len
    ensures k < n ==> RowStart(offset, stride, k) >= len
  {
    CountFromCharacterised(0, n, offset, stride, len);
    CountFrom(0, n, offset, stride, len)
  }

  lemma {:induction false} CountFromCharacterised(i: nat, n: nat, offset: int, stride: nat, len: nat)
    requires forall j :: 0 <= j < i ==> RowStart(offset, stride, j) < len
    requires i <= n
    ensures var k := CountFrom(i, n, offset, stride, len);
      && i <= k <= n
      && (forall j :: 0 <= j < k ==> RowStart(offset, stride, j) < len)
      && (k < n ==> RowStart(offset, stride, k) >= len)
    decreases n - i
  {
    if i < n && RowStart(offset, stride, i) < len {
      CountFromCharacterised(i + 1, n, offset, stride, len);
    }
  }

  lemma RowCountFull(n: nat, offset: int, stride: nat, len: nat)
    requires forall j :: 0 <= j < n ==> RowStart(offset, stride, j) < len
    ensures RowCount(n, offset, stride, len) == n
  {
  }

  lemma RowStartShift(offset: int, stride: nat, s: nat, i: nat)
    ensures RowStart(offset + s * stride, stride, i) == RowStart(offset, stride, s + i)
  {
    assert (s + i) * stride == s * stride + i * stride;
  }

  /** Row `i` of `n` rows of positive stride starts before the end of
      `n * stride` elements. */
  lemma RowStartBelow(i: nat, n: nat, stride: nat)
    requires i < n && stride > 0
    ensures RowStart(0, stride, i) < n * stride
  {
    MulLe(i + 1, n, stride);
  }

  /** Every typed array inside the view is a valid window on storage `s`. */
  predicate Aliases(v: View, s: Storage)
    decreases v
  {
    match v
    case Flat(a) => a.store == s && Valid(a)
    case Nd(b, _, _, rows) => b.store == s && Valid(b) && forall i :: 0 <= i < |rows| ==> Aliases(rows[i], s)
  }

  /** `_reshape`: the view of `shape` starting at element `offset`. A rank-one
      request for the whole buffer answers the buffer itself; with an empty
      shape the end index is NaN, which `subarray` reads as 0. */
  function Reshape(buffer: TypedArray, shape: seq<nat>, offset: int): (r: View)
    requires Valid(buffer)
    ensures Aliases(r, buffer.store)
    ensures |shape| > 1 ==> r.Nd? && r.buffer == buffer && r.shape == shape && r.offset == offset
    ensures |shape| > 1 ==> var stride := Stride(shape);
      && |r.rows| <= shape[0]
      && (forall i :: 0 <= i < |r.rows| ==> RowStart(offset, stride, i) < buffer.length)
      && (|r.rows| < shape[0] ==> RowStart(offset, stride, |r.rows|) >= buffer.length)
    ensures |shape| <= 1 ==> r.Flat? && r.a.dtype == buffer.dtype
    ensures |shape| == 1 && 0 <= offset && offset + shape[0] <= buffer.length ==>
      r.a.length == shape[0] && Bytes(r.a) == ElementBytes(buffer, offset, shape[0])
    decreases |shape|, 1
  {
    if |shape| > 1 then
      Nd(buffer, shape, offset, Rows(buffer, shape, offset, RowCount(shape[0], offset, Stride(shape), buffer.length)))
    else if |shape| == 1 then
      Flat(Window(buffer, offset, shape[0]))
    else
      Flat(TypedArrays.Subarray(buffer, offset, 0))
  }

  /** The first `n` rows of a higher-rank reshape: row `i` is the reshape of
      the remaining dimensions `i` strides after `offset`. */
  function Rows(buffer: TypedArray, shape: seq<nat>, offset: int, n: nat): (rows: seq<View>)
    requires Valid(buffer) && |shape| > 1
    ensures |rows| == n && forall i :: 0 <= i < n ==> Aliases(rows[i], buffer.store)
    decreases |shape|, 0
  {
    seq(n, i requires 0 <= i < n => Reshape(buffer, shape[1..], RowStart(offset, Stride(shape), i)))
  }

  /** Child `i` of a higher-rank reshape is the reshape of the remaining
      dimensions starting `i` strides after `offset`. */
  lemma ReshapeRows(buffer: TypedArray, shape: seq<nat>, offset: int, i: nat)
    requires Valid(buffer) && |shape| > 1 && i < |Reshape(buffer, shape, offset).rows|
    ensures Reshape(buffer, shape, offset).rows[i] == Reshape(buffer, shape[1..], RowStart(offset, Stride(shape), i))
  {
  }

  /** `ReshapeRows` with the remaining dimensions, the stride and the row
      start given by name. */
  lemma RowAt(buffer: TypedArray, shape: seq<nat>, offset: int, i: nat, rest: seq<nat>, stride: nat, p: int)
    requires Valid(buffer) && |shape| > 1 && i < |Reshape(buffer, shape, offset).rows|
    requires rest == shape[1..] && stride == Stride(shape) && p == RowStart(offset, stride, i)
    ensures Reshape(buffer, shape, offset).rows[i] == Reshape(buffer, rest, p)
  {
    ReshapeRows(buffer, shape, offset, i);
  }

  /** Views as `_reshape` builds them: a higher-rank view is exactly the
      reshape of its own buffer, shape and offset. */
  predicate Wf(v: View) {
    match v
    case Flat(a) => Valid(a)
    case Nd(b, shape, offset, _) => |shape| >= 2 && Valid(b) && v == Reshape(b, shape, offset)
  }

  /** What every view has, however it was made: a valid flat buffer, and a
      shape of rank two or more on a higher-rank view. */
  predicate Sound(v: View) {
    match v
    case Flat(a) => Valid(a)
    case Nd(b, shape, _, rows) => |shape| >= 2 && Valid(b) && |rows| <= shape[0]
  }

  /** The elements the shape announces all lie inside the buffer. */
  predicate InBounds(v: View) {
    v.Nd? ==> 0 <= v.offset && v.offset + Product(v.shape) <= v.buffer.length
  }

  function ShapeOf(v: View): seq<nat> {
    match v
    case Flat(a) => [a.length]
    case Nd(_, shape, _, _) => shape
  }

  function DtypeOf(v: View): Dtype {
    match v
    case Flat(a) => a.dtype
    case Nd(b, _, _, _) => b.dtype
  }

  function Store(v: View): Storage {
    match v
    case Flat(a) => a.store
    case Nd(b, _, _, _) => b.store
  }

  function DimsOf(shape: ShapeArg): seq<nat>
    requires shape.Text? ==> ShapeText.Readable(shape.text)
  {
    match shape
    case Dims(d) => d
    case Text(t) => ShapeText.Parse(t)
    case Number(n) => [n]
  }

  /** The flat buffer `create` reshapes: a fresh zeroed array of `n`
      elements for a type tag or a constructor, the given array itself
      otherwise. */
  function NewBuffer(value: Source, n: nat, freshId: nat): (r: Result<TypedArray, NdError>)
    requires value.Existing? ==> Valid(value.typed)
    ensures r.Err? <==> value.Tag? && CtorOf(value.tag).None?
    ensures r.Err? ==> r.error == UnknownDtype(value.tag)
    ensures r.Ok? ==> Valid(r.value)
    ensures r.Ok? && value.Existing? ==> r.value == value.typed
    ensures r.Ok? && !value.Existing? ==>
      && r.value == Alloc(r.value.dtype, n, freshId)
      && (value.Ctor? ==> r.value.dtype == value.dtype)
      && (value.Tag? ==> Some(r.value.dtype) == CtorOf(value.tag))
  {
    match value
    case Tag(t) => if CtorOf(t).Some? then Ok(Alloc(CtorOf(t).value, n, freshId)) else Err(UnknownDtype(t))
    case Ctor(d) => Ok(Alloc(d, n, freshId))
    case Existing(a) => Ok(a)
  }

  /** `Ndarray.create`: a fresh zero-filled buffer of the shape's size for a
      type tag or constructor (the offset is then ignored), or a view over a
      given typed array at `offset`. `freshId` names the storage a fresh
      buffer gets. */
  function Create(value: Source, shape: ShapeArg, offset: int, freshId: nat): (r: Result<View, NdError>)
    requires shape.Text? ==> ShapeText.Readable(shape.text)
    requires value.Existing? ==> Valid(value.typed)
    ensures r.Err? <==> value.Tag? && CtorOf(value.tag).None?
    ensures r.Ok? ==> Wf(r.value) && Aliases(r.value, Store(r.value))
    ensures r.Ok? && |DimsOf(shape)| >= 2 ==>
      && r.value.Nd? && r.value.shape == DimsOf(shape)
      && r.value.offset == (if value.Existing? then offset else 0)
    ensures r.Ok? && |DimsOf(shape)| <= 1 ==> r.value.Flat?
    ensures r.Ok? && |DimsOf(shape)| == 1 && !value.Existing? ==> r.value.a.length == DimsOf(shape)[0]
    ensures r.Ok? && value.Existing? ==> Store(r.value) == value.typed.store && DtypeOf(r.value) == value.typed.dtype
    ensures r.Ok? && !value.Existing? ==> var d := DtypeOf(r.value);
      && Store(r.value) == Alloc(d, Product(DimsOf(shape)), freshId).store
      && (value.Ctor? ==> d == value.dtype)
      && (value.Tag? ==> Some(d) == CtorOf(value.tag))
  {
    var dims := DimsOf(shape);
    var buffer :- NewBuffer(value, Product(dims), freshId);
    var start := if value.Existing? then offset else 0;
    var v := Reshape(buffer, dims, start);
    ReshapeIsWf(buffer, dims, start);
    assert |dims| == 1 ==> Product(dims) == dims[0] by {
      if |dims| == 1 { ProductOfOne(dims); }
    }
    Ok(v)
  }

  lemma ReshapeIsWf(buffer: TypedArray, shape: seq<nat>, offset: int)
    requires Valid(buffer)
    ensures Wf(Reshape(buffer, shape, offset))
  {
  }

  /** `ndarray.subarray(begin, end)` with the begin index clamped once, as
      `Array.prototype.slice` clamps it: the selected rows, the first
      dimension shrunk to their number, and the offset of the first of them. */
  function Subarray(v: View, begin: int, end: int): (r: View)
    requires Sound(v) && v.Nd?
    ensures r.Nd? && Sound(r) && r.buffer == v.buffer && Store(r) == Store(v)
    ensures r.shape[1..] == v.shape[1..] && r.shape[0] == |r.rows| <= |v.rows|
    ensures var s := Relative(begin, |v.rows|);
      && |r.rows| == Max(Relative(end, |v.rows|) - s, 0)
      && r.offset == v.offset + s * Stride(v.shape)
      && s + |r.rows| <= |v.rows|
      && (forall i :: 0 <= i < |r.rows| ==> r.rows[i] == v.rows[s + i])
  {
    var len := |v.rows|;
    var s := Relative(begin, len);
    var e := Max(Relative(end, len), s);
    Nd(v.buffer, v.shape[0 := e - s], v.offset + s * Stride(v.shape), v.rows[s..e])
  }

  /** `ndarray.subarray(begin, end)` as written: a negative begin is shifted
      by the length and then shifted again by `slice`, while the offset uses
      the once-shifted, unclamped value. */
  function SubarrayAsWritten(v: View, begin: int, end: int): (r: View)
    requires Sound(v) && v.Nd?
    ensures r.Nd? && Sound(r) && Store(r) == Store(v) && r.buffer == v.buffer
    ensures r.shape[1..] == v.shape[1..] && r.shape[0] == |r.rows|
    ensures var b := if begin < 0 then begin + |v.rows| else begin;
      var s := Relative(b, |v.rows|);
      && |r.rows| == Max(Relative(end, |v.rows|) - s, 0)
      && r.offset == v.offset + b * Stride(v.shape)
      && s + |r.rows| <= |v.rows|
      && (forall i :: 0 <= i < |r.rows| ==> r.rows[i] == v.rows[s + i])
    ensures -|v.rows| <= begin <= |v.rows| ==> r == Subarray(v, begin, end)
  {
    var len := |v.rows|;
    var b := if begin < 0 then begin + len else begin;
    var s := Relative(b, len);
    var e := Max(Relative(end, len), s);
    Nd(v.buffer, v.shape[0 := e - s], v.offset + b * Stride(v.shape), v.rows[s..e])
  }

  /** The subarray of a well-formed view is the reshape of the selected
      window, so it stays well formed. */
  lemma SubarrayKeepsWf(v: View, begin: int, end: int)
    requires Wf(v) && v.Nd?
    ensures Wf(Subarray(v, begin, end))
  {
    var s := Relative(begin, |v.rows|);
    var m := Max(Relative(end, |v.rows|), s) - s;
    var o := v.offset + s * Stride(v.shape);
    assert Subarray(v, begin, end) == Nd(v.buffer, v.shape[0 := m], o, v.rows[s..s + m]);
    ReshapeWindow(v.buffer, v.shape, v.offset, s, m);
  }

  /** The `m` rows from row `s` on, with the first dimension set to `m`, are
      exactly what reshaping at the offset of row `s` builds. */
  lemma ReshapeWindow(buffer: TypedArray, shape: seq<nat>, offset: int, s: nat, m: nat)
    requires Valid(buffer) && |shape| > 1 && s + m <= |Reshape(buffer, shape, offset).rows|
    ensures var o := offset + s * Stride(shape);
      Reshape(buffer, shape[0 := m], o) == Nd(buffer, shape[0 := m], o, Reshape(buffer, shape, offset).rows[s..s + m])
  {
    var stride := Stride(shape);
    var L := buffer.length;
    var o := offset + s * stride;
    var shape' := shape[0 := m];
    assert shape'[1..] == shape[1..];
    assert Stride(shape') == stride;
    var v := Reshape(buffer, shape, offset);
    forall i | 0 <= i < m ensures RowStart(o, stride, i) < L {
      RowStartShift(offset, stride, s, i);
      assert s + i < |v.rows|;
    }
    RowCountFull(m, o, stride, L);
    var w := Reshape(buffer, shape', o);
    assert |w.rows| == m;
    forall i | 0 <= i < m ensures w.rows[i] == v.rows[s + i] {
      RowStartShift(offset, stride, s, i);
      var p := RowStart(offset, stride, s + i);
      RowAt(buffer, shape, offset, s + i, shape[1..], stride, p);
      RowAt(buffer, shape', o, i, shape[1..], stride, p);
    }
    assert w.rows == v.rows[s..s + m];
  }

  /** The subarray of an in-bounds view starts at its first selected row and
      stays inside the buffer. */
  lemma SubarrayInBounds(v: View, begin: int, end: int)
    requires Sound(v) && v.Nd? && InBounds(v)
    ensures var r := Subarray(v, begin, end);
      && InBounds(r)
      && r.offset == v.offset + Relative(begin, |v.rows|) * Stride(v.shape)
  {
    var r := Subarray(v, begin, end);
    var s := Relative(begin, |v.rows|);
    var stride := Stride(v.shape);
    assert Product(r.shape) == |r.rows| * stride;
    assert Product(v.shape) == v.shape[0] * stride;
    WindowArith(v.offset, s, |r.rows|, v.shape[0], stride, 1);
  }

  /** A 3 x 2 view over six fresh float64 elements has all three rows. */
  lemma SixElementView()
    ensures var v := Reshape(Alloc(Float64, 6, 0), [3, 2], 0);
      Wf(v) && InBounds(v) && |v.rows| == 3 && Stride(v.shape) == 2
  {
    var buf := Alloc(Float64, 6, 0);
    ReshapeIsWf(buf, [3, 2], 0);
    assert [3, 2][1..] == [2];
    assert Product([2]) == 2;
    assert RowStart(0, 2, 2) == 4;
    RowCountFull(3, 0, 2, 6);
  }

  /** The 3 x 2 view of six float64 elements and its written subarray from
      -5 to 3: rows 1 and 2 are kept but the offset is -4. */
  lemma AsWrittenSubarrayOfSix() returns (v: View, w: View)
    ensures v == Reshape(Alloc(Float64, 6, 0), [3, 2], 0) && Wf(v) && InBounds(v) && |v.rows| == 3
    ensures w == SubarrayAsWritten(v, -5, 3)
    ensures w.rows == v.rows[1..] && w.shape == [2, 2] && w.offset == -4 && w.buffer == v.buffer
    ensures Subarray(v, -5, 3).rows == v.rows
  {
    SixElementView();
    v := Reshape(Alloc(Float64, 6, 0), [3, 2], 0);
    w := SubarrayAsWritten(v, -5, 3);
  }

  /** The written subarray of the same 3 x 2 view from 4 to 3: both keep no
      rows, but the written offset is 4 rows on, past the view's end, where
      the clamped one stops at the end, 3 rows on. */
  lemma AsWrittenSubarrayPastEnd() returns (v: View, w: View)
    ensures v == Reshape(Alloc(Float64, 6, 0), [3, 2], 0) && Wf(v) && |v.rows| == 3
    ensures w == SubarrayAsWritten(v, 4, 3)
    ensures w.rows == [] && w.shape == [0, 2] && w.offset == 8
    ensures Subarray(v, 4, 3).rows == [] && Subarray(v, 4, 3).offset == 6 && w != Subarray(v, 4, 3)
  {
    SixElementView();
    v := Reshape(Alloc(Float64, 6, 0), [3, 2], 0);
    w := SubarrayAsWritten(v, 4, 3);
  }

  /** A view whose announced elements end exactly at element 0 of the
      buffer has an empty flat buffer: the end index 0 is not counted from
      the end. */
  lemma EndingAtZeroIsEmpty(w: View)
    requires Sound(w) && w.Nd? && w.offset < 0 && w.offset + Product(w.shape) == 0
    ensures ToBuffer(w).length == 0 && Bytes(Pack(w).buffer) == []
  {
  }

  /** With a begin index below minus the row count, the written subarray of
      a 3 x 2 view keeps two rows but records offset -4, so its flat buffer,
      and hence its packed bytes, are empty although its shape announces four
      elements; the clamped subarray keeps all three rows. */
  lemma SubarrayAsWrittenLosesElements() returns (v: View, w: View)
    ensures v == Reshape(Alloc(Float64, 6, 0), [3, 2], 0) && w == SubarrayAsWritten(v, -5, 3)
    ensures |w.rows| == 2 && Product(w.shape) == 4
    ensures ToBuffer(w).length == 0 && Bytes(Pack(w).buffer) == []
    ensures |Subarray(v, -5, 3).rows| == 3
  {
    v, w := AsWrittenSubarrayOfSix();
    assert Product(w.shape) == 4 by {
      assert w.shape[1..] == [2];
      assert Product([2]) == 2;
    }
    EndingAtZeroIsEmpty(w);
  }

  lemma WindowArith(o: int, s: nat, m: nat, n: nat, stride: nat, e: nat)
    requires s + m <= n
    ensures (o + s * stride) * e == o * e + s * (stride * e)
    ensures (o + s * stride + m * stride) * e == o * e + (s + m) * (stride * e)
    ensures (s + m) * (stride * e) <= n * (stride * e)
    ensures (o + n * stride) * e == o * e + n * (stride * e)
    ensures o + s * stride + m * stride <= o + n * stride
  {
    MulLe(s + m, n, stride);
    MulLe(s + m, n, stride * e);
    assert (s + m) * stride == s * stride + m * stride;
  }

  /** Two windows of `b` from the same start `a`: the inner one is the
      matching slice of the outer one. */
  lemma InnerWindow(b: TypedArray, b': TypedArray, outer: TypedArray, inner: TypedArray,
                    x: int, y: int, x': int, y': int, a: nat, lo: nat, hi: nat, n: nat)
    requires Valid(b) && b' == b && Valid(outer) && Valid(inner)
    requires x == a && y == a + n && x' == a + lo && y' == a + hi
    requires lo <= hi <= n && a + n <= |Bytes(b)|
    requires Bytes(outer) == Bytes(b)[x..y] && Bytes(inner) == Bytes(b')[x'..y']
    ensures hi <= |Bytes(outer)| && Bytes(inner) == Bytes(outer)[lo..hi]
  {
    WindowOfWindow(Bytes(b), a, a + n, a + lo, a + hi);
  }

  /** The elements of a subarray of an in-bounds view are the matching
      slice of the view's own elements. */
  lemma SubarrayElements(v: View, begin: int, end: int) returns (lo: nat, hi: nat)
    requires Sound(v) && v.Nd? && InBounds(v)
    ensures var k := Stride(v.shape) * ElementSize(v.buffer.dtype);
      && lo == Relative(begin, |v.rows|) * k
      && hi == (Relative(begin, |v.rows|) + |Subarray(v, begin, end).rows|) * k
    ensures lo <= hi <= |Bytes(ToBuffer(v))|
    ensures Bytes(ToBuffer(Subarray(v, begin, end))) == Bytes(ToBuffer(v))[lo..hi]
  {
    var r := Subarray(v, begin, end);
    SubarrayInBounds(v, begin, end);
    var stride := Stride(v.shape);
    assert Product(v.shape) == v.shape[0] * stride;
    assert Product(r.shape) == |r.rows| * stride;
    lo, hi := SpanWindow(v.buffer, v.offset, Relative(begin, |v.rows|), |r.rows|, v.shape[0], stride,
                         Product(v.shape), r.offset, Product(r.shape), ToBuffer(v), ToBuffer(r));
  }

  /** Row `i` of a well-formed view is the reshape of the remaining
      dimensions at its row start. */
  lemma RowIsReshape(v: View, i: nat)
    requires Wf(v) && v.Nd? && i < |v.rows|
    ensures i < v.shape[0]
    ensures v.rows[i] == Reshape(v.buffer, v.shape[1..], RowStart(v.offset, Stride(v.shape), i))
  {
    ReshapeRows(v.buffer, v.shape, v.offset, i);
  }

  /** A reshape that lies inside its buffer flattens to exactly its
      elements. */
  lemma ReshapeBytes(buffer: TypedArray, shape: seq<nat>, p: nat)
    requires Valid(buffer) && |shape| >= 1 && p + Product(shape) <= buffer.length
    ensures Sound(Reshape(buffer, shape, p))
    ensures Bytes(Flatten(Reshape(buffer, shape, p))) == ElementBytes(buffer, p, Product(shape))
  {
    if |shape| == 1 {
      ProductOfOne(shape);
      FlatReshapeBytes(buffer, shape[0], p);
      assert Reshape(buffer, shape, p) == Flat(Window(buffer, p, shape[0]));
    } else {
      NdReshapeBytes(buffer, shape, p);
    }
  }

  /** The rank-one case: the window of `n` elements from `p`. */
  lemma FlatReshapeBytes(buffer: TypedArray, n: nat, p: nat)
    requires Valid(buffer) && p + n <= buffer.length
    ensures Bytes(Window(buffer, p, n)) == ElementBytes(buffer, p, n)
  {
  }

  /** The higher-rank case: `toBuffer` of the reshape. */
  lemma NdReshapeBytes(buffer: TypedArray, shape: seq<nat>, p: nat)
    requires Valid(buffer) && |shape| > 1 && p + Product(shape) <= buffer.length
    ensures var v := Reshape(buffer, shape, p);
      && Sound(v) && v.Nd? && InBounds(v)
      && Bytes(Flatten(v)) == ElementBytes(buffer, p, Product(shape))
  {
    var v := Reshape(buffer, shape, p);
    assert v.Nd? && v.buffer == buffer && v.shape == shape && v.offset == p;
    assert Flatten(v) == ToBuffer(v);
  }

  /** Row `i` of `n` rows starting at element `o` starts at a natural
      position and ends by the end of the `n` rows. */
  lemma RowStartIn(o: nat, i: nat, n: nat, stride: nat) returns (p: nat)
    requires i < n
    ensures p == RowStart(o, stride, i) && p + stride <= o + n * stride
  {
    WindowArith(o, i, 1, n, stride, 1);
    p := o + i * stride;
  }

  /** Where rows `s` to `s + m` of `n` rows of `stride` elements from
      element `o` lie, in units of `e`: `a` is where the rows start, `lo`
      and `hi` bound the selected rows relative to `a`, and `t` is the
      length of all `n` rows. */
  lemma SpanOffsets(o: nat, s: nat, m: nat, n: nat, stride: nat, e: nat) returns (a: nat, lo: nat, hi: nat, t: nat)
    requires s + m <= n
    ensures a == o * e && lo == s * (stride * e) && hi == (s + m) * (stride * e) && t == n * (stride * e)
    ensures (o + s * stride) * e == a + lo && (o + s * stride + m * stride) * e == a + hi
    ensures (o + n * stride) * e == a + t && lo <= hi <= t
  {
    WindowArith(o, s, m, n, stride, e);
    MulLe(s, s + m, stride * e);
    a, lo, hi, t := o * e, s * (stride * e), (s + m) * (stride * e), n * (stride * e);
  }

  /** The elements `inner` of rows `s` to `s + m` of `n` rows of `stride`
      elements from element `o` (so `span` elements from element `p`) are
      the matching slice of the elements `whole` of all `n` rows (`total`
      elements). */
  lemma SpanWindow(buffer: TypedArray, o: nat, s: nat, m: nat, n: nat, stride: nat,
                   total: nat, p: nat, span: nat, whole: TypedArray, inner: TypedArray)
      returns (lo: nat, hi: nat)
    requires Valid(buffer) && Valid(whole) && Valid(inner) && s + m <= n
    requires total == n * stride && p == o + s * stride && span == m * stride
    requires o + total <= buffer.length && p + span <= buffer.length
    requires Bytes(whole) == ElementBytes(buffer, o, total)
    requires Bytes(inner) == ElementBytes(buffer, p, span)
    ensures var k := stride * ElementSize(buffer.dtype);
      lo == s * k && hi == (s + m) * k
    ensures lo <= hi <= |Bytes(whole)| && Bytes(inner) == Bytes(whole)[lo..hi]
  {
    var e := ElementSize(buffer.dtype);
    var a, t;
    a, lo, hi, t := SpanOffsets(o, s, m, n, stride, e);
    InnerWindow(buffer, buffer, whole, inner,
                o * e, (o + total) * e, p * e, (p + span) * e, a, lo, hi, t);
  }

  /** The row that starts `i` strides into an in-bounds reshape holds the
      `i`-th stride of the reshape's elements. */
  lemma RowTile(buffer: TypedArray, shape: seq<nat>, o: nat, i: nat, row: View) returns (lo: nat, hi: nat)
    requires Valid(buffer) && |shape| >= 2 && i < shape[0] && o + Product(shape) <= buffer.length
    requires row == Reshape(buffer, shape[1..], RowStart(o, Stride(shape), i))
    ensures var k := Stride(shape) * ElementSize(buffer.dtype);
      lo == i * k && hi == (i + 1) * k
    ensures Sound(row) && lo <= hi <= |Bytes(Window(buffer, o, Product(shape)))|
    ensures Bytes(Flatten(row)) == Bytes(Window(buffer, o, Product(shape)))[lo..hi]
  {
    var stride := Stride(shape);
    assert Product(shape) == shape[0] * stride;
    var p := RowStartIn(o, i, shape[0], stride);
    ReshapeBytes(buffer, shape[1..], p);
    FlatReshapeBytes(buffer, Product(shape), o);
    lo, hi := SpanWindow(buffer, o, i, 1, shape[0], stride, Product(shape), p, stride,
                         Window(buffer, o, Product(shape)), Flatten(row));
  }

  /** The rows `xreshape` yields tile the view's elements: row `i` of an
      in-bounds view holds exactly the `i`-th stride of `toBuffer`. */
  lemma RowElements(v: View, i: nat) returns (lo: nat, hi: nat)
    requires Wf(v) && v.Nd? && InBounds(v) && i < |v.rows|
    ensures v.rows[i] == Reshape(v.buffer, v.shape[1..], RowStart(v.offset, Stride(v.shape), i))
    ensures var k := Stride(v.shape) * ElementSize(v.buffer.dtype);
      lo == i * k && hi == (i + 1) * k
    ensures Sound(v.rows[i]) && lo <= hi <= |Bytes(ToBuffer(v))|
    ensures Bytes(Flatten(v.rows[i])) == Bytes(ToBuffer(v))[lo..hi]
  {
    RowIsReshape(v, i);
    lo, hi := RowTile(v.buffer, v.shape, v.offset, i, v.rows[i]);
  }

  /** `toBuffer`: the flat typed array covering the view's elements, the
      buffer itself when the view covers all of it. */
  function ToBuffer(v: View): (t: TypedArray)
    requires Sound(v) && v.Nd?
    ensures Valid(t) && t.store == v.buffer.store && t.dtype == v.buffer.dtype
    ensures t.length <= Product(v.shape)
    ensures InBounds(v) ==>
      t.length == Product(v.shape) && Bytes(t) == ElementBytes(v.buffer, v.offset, Product(v.shape))
  {
    Window(v.buffer, v.offset, Product(v.shape))
  }

  /** `reshape`: a new view with another shape over the same buffer and
      offset. */
  function ReshapeView(v: View, shape: ShapeArg): (r: View)
    requires Sound(v) && v.Nd?
    requires shape.Text? ==> ShapeText.Readable(shape.text)
    ensures Wf(r) && Aliases(r, Store(v)) && DtypeOf(r) == DtypeOf(v)
    ensures |DimsOf(shape)| >= 2 ==> r.Nd? && r.buffer == v.buffer && r.shape == DimsOf(shape) && r.offset == v.offset
    ensures |DimsOf(shape)| <= 1 ==> r.Flat?
    ensures var dims := DimsOf(shape);
      |dims| == 1 && 0 <= v.offset && v.offset + dims[0] <= v.buffer.length ==>
        r.a.length == dims[0] && Bytes(r.a) == ElementBytes(v.buffer, v.offset, dims[0])
  {
    Create(Existing(v.buffer), shape, v.offset, 0).value
  }

  /** Reshaping to a shape of the same size keeps the elements the view
      covers. */
  lemma ReshapeKeepsElements(v: View, dims: seq<nat>)
    requires Sound(v) && v.Nd? && InBounds(v)
    requires |dims| >= 2 && Product(dims) == Product(v.shape)
    ensures var r := ReshapeView(v, Dims(dims));
      && r.Nd? && r.shape == dims && InBounds(r)
      && Bytes(ToBuffer(r)) == Bytes(ToBuffer(v))
  {
  }

  /** The element array a packed view carries. */
  function Flatten(v: View): (t: TypedArray)
    requires Sound(v)
    ensures Valid(t) && t.store == Store(v) && t.dtype == DtypeOf(v)
  {
    if v.Flat? then v.a else ToBuffer(v)
  }

  /** `Ndarray.pack`: shape, type tag, and a byte view of the elements. */
  function Pack(v: View): (p: Packed)
    requires Sound(v)
    ensures p.shape == ShapeOf(v) && CtorOf(p.dtype) == Some(DtypeOf(v))
    ensures Valid(p.buffer) && p.buffer.dtype == Uint8 && p.buffer.store == Store(v)
    ensures Bytes(p.buffer) == Bytes(Flatten(v))
  {
    var t := Flatten(v);
    TagMapsInvert(t.dtype, "");
    Packed(ShapeOf(v), TagOf(t.dtype), ByteView(t))
  }

  /** `Ndarray.unpack`: the bytes are copied into a fresh storage `freshId`,
      viewed with the tag's constructor, and reshaped from offset 0. */
  function Unpack(p: Packed, freshId: nat): (r: Result<View, NdError>)
    requires Valid(p.buffer)
    ensures r.Ok? <==> CtorOf(p.dtype).Some? && ByteLength(p.buffer) % ElementSize(CtorOf(p.dtype).value) == 0
    ensures CtorOf(p.dtype).None? ==> r == Err(UnknownDtype(p.dtype))
    ensures r.Ok? ==> && Wf(r.value) && Store(r.value) == Storage(freshId, Bytes(p.buffer))
                      && Aliases(r.value, Store(r.value)) && Some(DtypeOf(r.value)) == CtorOf(p.dtype)
  {
    if CtorOf(p.dtype).None? then Err(UnknownDtype(p.dtype))
    else
      var d := CtorOf(p.dtype).value;
      var arr := OverStorage(d, Storage(freshId, Bytes(p.buffer)));
      if arr.None? then Err(MisalignedBytes)
      else
        ReshapeIsWf(arr.value, p.shape, 0);
        Ok(Reshape(arr.value, p.shape, 0))
  }

  /** `ndarray.slice(begin, end)`: the subarray, packed and unpacked, so a
      copy on its own storage. */
  function Slice(v: View, begin: int, end: int, freshId: nat): (r: Result<View, NdError>)
    requires Sound(v) && v.Nd?
    ensures r.Ok? && Store(r.value).id == freshId && Wf(r.value)
    ensures SameContent(Pack(r.value), Pack(Subarray(v, begin, end)))
  {
    PackUnpack(Subarray(v, begin, end), freshId);
    Unpack(Pack(Subarray(v, begin, end)), freshId)
  }

  /** `Ndarray.isNdarray(value, ndim, dtype)`. */
  function IsNdarray(value: Value, ndim: int, dtype: Option<Dtype>): (b: bool)
    ensures b ==> value.Arr?
    ensures value.Arr? && value.view.Nd? ==>
      (b <==> ndim == |value.view.shape| && (dtype.Some? ==> value.view.buffer.dtype == dtype.value))
    ensures value.Arr? && value.view.Flat? ==>
      (b <==> ndim == 1 && (dtype.Some? ==> value.view.a.dtype == dtype.value))
  {
    match value
    case NotArray => false
    case Arr(v) => |ShapeOf(v)| == ndim && (dtype.Some? ==> DtypeOf(v) == dtype.value)
  }

  /** Two packed values carrying the same shape, type and bytes. */
  predicate SameContent(p: Packed, q: Packed)
    requires Valid(p.buffer) && Valid(q.buffer)
  {
    p.shape == q.shape && p.dtype == q.dtype && Bytes(p.buffer) == Bytes(q.buffer)
  }

  /** Reshaping a whole storage-backed array from offset 0 flattens back to
      that array when the shape covers it. */
  lemma FlattenWhole(arr: TypedArray, shape: seq<nat>)
    requires Valid(arr) && arr.byteOffset == 0 && |shape| >= 1
    requires if |shape| == 1 then shape[0] == arr.length else Product(shape) >= arr.length
    ensures Flatten(Reshape(arr, shape, 0)) == arr
    ensures Pack(Reshape(arr, shape, 0)) == Packed(shape, TagOf(arr.dtype), ByteView(arr))
  {
    var w := Reshape(arr, shape, 0);
    if |shape| > 1 {
      var t := ToBuffer(w);
      if Product(shape) != arr.length {
        assert t == TypedArrays.Subarray(arr, 0, Product(shape));
        assert t.length == arr.length;
      }
    }
  }

  /** Unpacking a packed view always succeeds and packs back to the same
      shape, type and bytes, on the fresh storage. */
  lemma PackUnpack(v: View, freshId: nat)
    requires Sound(v)
    ensures var r := Unpack(Pack(v), freshId);
      && r.Ok? && Store(r.value).id == freshId
      && SameContent(Pack(r.value), Pack(v))
  {
    var p := Pack(v);
    var t := Flatten(v);
    var d := DtypeOf(v);
    assert ByteLength(p.buffer) == ByteLength(t);
    WholeElements(t.length, d);
    var st := Storage(freshId, Bytes(p.buffer));
    var arr := OverStorage(d, st);
    assert arr.Some?;
    assert arr.value.length == t.length;
    var r := Unpack(p, freshId);
    assert r.value == Reshape(arr.value, p.shape, 0);
    FlattenWhole(arr.value, p.shape);
  }

  /** A packed value with a known type whose bytes are exactly its shape's
      elements unpacks to a view that packs back to it. */
  lemma UnpackPack(p: Packed, freshId: nat)
    requires Valid(p.buffer) && CtorOf(p.dtype).Some? && |p.shape| >= 1
    requires ByteLength(p.buffer) == Product(p.shape) * ElementSize(CtorOf(p.dtype).value)
    ensures Unpack(p, freshId).Ok?
    ensures SameContent(Pack(Unpack(p, freshId).value), p)
  {
    var d := CtorOf(p.dtype).value;
    TagMapsInvert(d, p.dtype);
    WholeElements(Product(p.shape), d);
    var arr := OverStorage(d, Storage(freshId, Bytes(p.buffer)));
    assert arr.Some?;
    assert arr.value.length == Product(p.shape);
    if |p.shape| == 1 {
      assert Product(p.shape) == p.shape[0];
    }
    FlattenWhole(arr.value, p.shape);
  }

  /** `create` with a known type tag reshapes a fresh array of the shape's
      size from its start. */
  lemma CreateTag(tag: string, dims: seq<nat>, freshId: nat)
    requires CtorOf(tag).Some?
    ensures Create(Tag(tag), Dims(dims), 0, freshId) == Ok(Reshape(Alloc(CtorOf(tag).value, Product(dims), freshId), dims, 0))
  {
    assert NewBuffer(Tag(tag), Product(dims), freshId) == Ok(Alloc(CtorOf(tag).value, Product(dims), freshId));
  }

  /** A created view packs to its own shape, its type's tag and zero bytes. */
  lemma PackCreate(tag: string, dims: seq<nat>, freshId: nat)
    requires CtorOf(tag).Some? && |dims| >= 1
    ensures var r := Create(Tag(tag), Dims(dims), 0, freshId);
      && r.Ok? && var p := Pack(r.value);
      && p.shape == dims && p.dtype == tag
      && Bytes(p.buffer) == Zeros(Product(dims) * ElementSize(CtorOf(tag).value))
  {
    TagMapsInvert(CtorOf(tag).value, tag);
    CreateTag(tag, dims, freshId);
    PackFresh(CtorOf(tag).value, dims, freshId);
  }

  /** A fresh array reshaped from its start packs to the shape, its tag and
      all-zero bytes. */
  lemma PackFresh(d: Dtype, dims: seq<nat>, freshId: nat)
    requires |dims| >= 1
    ensures var p := Pack(Reshape(Alloc(d, Product(dims), freshId), dims, 0));
      p.shape == dims && p.dtype == TagOf(d) && Bytes(p.buffer) == Zeros(Product(dims) * ElementSize(d))
  {
    var a := Alloc(d, Product(dims), freshId);
    if |dims| == 1 {
      ProductOfOne(dims);
    }
    FlattenWhole(a, dims);
  }

  /** A shape given as text names the same view as the numbers it lists. */
  lemma CreateFromText(value: Source, dims: seq<nat>, offset: int, freshId: nat)
    requires value.Existing? ==> Valid(value.typed)
    requires |dims| >= 1
    ensures ShapeText.Readable(ShapeText.Format(dims))
    ensures Create(value, Text(ShapeText.Format(dims)), offset, freshId) == Create(value, Dims(dims), offset, freshId)
  {
    ShapeText.ParseFormat(dims);
  }

  /** A created view passes `isNdarray` for its rank and type, and for no
      other rank. */
  lemma CreatedIsNdarray(d: Dtype, dims: seq<nat>, freshId: nat, ndim: int)
    requires |dims| >= 1
    ensures var r := Create(Ctor(d), Dims(dims), 0, freshId);
      && r.Ok?
      && IsNdarray(Arr(r.value), |dims|, Some(d))
      && IsNdarray(Arr(r.value), |dims|, None)
      && (IsNdarray(Arr(r.value), ndim, None) <==> ndim == |dims|)
  {
  }

  /** A slice of an in-bounds view is a copy, on storage of its own, of
      exactly the elements of the selected rows. */
  lemma SliceCopies(v: View, begin: int, end: int, freshId: nat) returns (lo: nat, hi: nat)
    requires Sound(v) && v.Nd? && InBounds(v)
    ensures var k := Stride(v.shape) * ElementSize(v.buffer.dtype);
      && lo == Relative(begin, |v.rows|) * k
      && hi == (Relative(begin, |v.rows|) + |Subarray(v, begin, end).rows|) * k
    ensures lo <= hi <= |Bytes(ToBuffer(v))|
    ensures var r := Slice(v, begin, end, freshId).value;
      && Store(r).id == freshId && ShapeOf(r) == Subarray(v, begin, end).shape
      && Bytes(Pack(r).buffer) == Bytes(ToBuffer(v))[lo..hi]
  {
    lo, hi := SubarrayElements(v, begin, end);
  }
}

=== FILE: path_routing.dfy ===
/** The two `open` replacements the engine is linked with: `__syscall_openat`
    (main.cpp) and `__wasilibc_open_nomode` (extern.cpp). Both route the three
    standard streams and the data file to fixed descriptors and refuse every
    other path with a negated EPERM. */
module PathRouting {

  /** EPERM in the WASI errno numbering. */
  const Eperm: int := 63

  const StdinFd: int := 0
  const StdoutFd: int := 1
  const StderrFd: int := 2
  /** The descriptor of the data file the engine reads and writes. */
  const DataFd: int := 3

  const DataPath: string := "sample.wav"

  /** The routed paths, listed at their descriptor. */
  const KnownPaths: seq<string> := ["/dev/stdin", "/dev/stdout", "/dev/stderr", DataPath]

  function OpenAt(dirfd: int, path: string, flags: int): (fd: int)
    ensures fd >= 0 <==> path in KnownPaths
    ensures fd >= 0 ==> fd < |KnownPaths| && KnownPaths[fd] == path
    ensures fd < 0 ==> fd == -Eperm
  {
    if path == "/dev/stdin" then StdinFd
    else if path == "/dev/stdout" then StdoutFd
    else if path == "/dev/stderr" then StderrFd
    else if path == DataPath then DataFd
    else -Eperm
  }

  function OpenNoMode(path: string, oflag: int): (fd: int)
    ensures fd >= 0 <==> path in KnownPaths
    ensures fd >= 0 ==> fd < |KnownPaths| && KnownPaths[fd] == path
    ensures fd < 0 ==> fd == -Eperm
  {
    if path == "/dev/stdin" then StdinFd
    else if path == "/dev/stdout" then StdoutFd
    else if path == "/dev/stderr" then StderrFd
    else if path == DataPath then 3
    else -Eperm
  }

  /** `__syscall_openat` answers the table index of a routed path and -EPERM
      for any other; the directory and flags play no part. */
  lemma OpenAtFollowsTable(dirfd: int, path: string, flags: int)
    ensures forall i :: 0 <= i < |KnownPaths| ==> OpenAt(dirfd, KnownPaths[i], flags) == i
    ensures path !in KnownPaths ==> OpenAt(dirfd, path, flags) == -Eperm < 0
    ensures OpenAt(dirfd, path, flags) >= 0 <==> path in KnownPaths
    ensures forall d: int, g: int :: OpenAt(d, path, g) == OpenAt(dirfd, path, flags)
  {
  }

  /** `__wasilibc_open_nomode` does the same from the path alone, so the
      two builds agree path for path. */
  lemma OpenNoModeAgrees(dirfd: int, path: string, flags: int, oflag: int)
    ensures OpenNoMode(path, oflag) == OpenAt(dirfd, path, flags)
    ensures forall o: int :: OpenNoMode(path, o) == OpenNoMode(path, oflag)
    ensures OpenNoMode(path, oflag) >= 0 <==> path in KnownPaths
  {
  }

  /** Distinct routed paths get distinct descriptors, and the data file's is
      the index the host fills with the data file. */
  lemma RoutesAreDistinct(p: string, q: string, oflag: int)
    requires p in KnownPaths && q in KnownPaths && p != q
    ensures OpenNoMode(p, oflag) != OpenNoMode(q, oflag)
    ensures OpenNoMode(DataPath, oflag) == DataFd
  {
  }
}

=== FILE: shape_text.dfy ===
/** Shapes written as text: `"3,4"` is split at commas and each piece is
    converted to a number, so it names the shape [3, 4]. Only pieces made of
    decimal digits are modelled; the empty piece converts to 0. */
module ShapeText {

  predicate IsDigit(c: char) {
    '0' <= c <= '9'
  }

  predicate NoComma(s: string) {
    forall i :: 0 <= i < |s| ==> s[i] != ','
  }

  predicate AllDigits(s: string) {
    forall i :: 0 <= i < |s| ==> IsDigit(s[i])
  }

  /** A text shape the model can read: digits and commas only. */
  predicate Readable(s: string) {
    forall i :: 0 <= i < |s| ==> s[i] == ',' || IsDigit(s[i])
  }

  /** `String.prototype.split(',')`: always at least one piece. */
  function Split(s: string): (r: seq<string>)
    ensures |r| >= 1
    ensures forall k :: 0 <= k < |r| ==> NoComma(r[k])
  {
    if |s| == 0 then [""]
    else
      var rest := Split(s[1..]);
      if s[0] == ',' then [""] + rest
      else [[s[0]] + rest[0]] + rest[1..]
  }

  function Join(parts: seq<string>): string
    requires |parts| >= 1
  {
    if |parts| == 1 then parts[0] else parts[0] + "," + Join(parts[1..])
  }

  function DigitValue(c: char): nat
    requires IsDigit(c)
  {
    (c as int) - ('0' as int)
  }

  function DigitChar(d: nat): (c: char)
    requires d < 10
    ensures IsDigit(c) && DigitValue(c) == d
  {
    (('0' as int) + d) as char
  }

  /** `Number(piece)` for a piece of decimal digits. */
  function ParseNat(s: string): nat
    requires AllDigits(s)
  {
    if |s| == 0 then 0 else ParseNat(s[..|s| - 1]) * 10 + DigitValue(s[|s| - 1])
  }

  /** The decimal numeral of `n`. */
  function ShowNat(n: nat): (s: string)
    ensures |s| >= 1 && AllDigits(s)
  {
    if n < 10 then [DigitChar(n)] else ShowNat(n / 10) + [DigitChar(n % 10)]
  }

  /** The shape a readable text names. */
  function Parse(s: string): (dims: seq<nat>)
    requires Readable(s)
    ensures |dims| == |Split(s)|
  {
    var parts := Split(s);
    SplitPiecesAreDigits(s);
    seq(|parts|, k requires 0 <= k < |parts| => ParseNat(parts[k]))
  }

  /** Dimensions written out with commas between them. */
  function Format(dims: seq<nat>): string
    requires |dims| >= 1
  {
    Join(seq(|dims|, k requires 0 <= k < |dims| => ShowNat(dims[k])))
  }

  lemma {:induction false} SplitPiecesAreDigits(s: string)
    requires Readable(s)
    ensures forall k :: 0 <= k < |Split(s)| ==> AllDigits(Split(s)[k])
    decreases |s|
  {
    if |s| > 0 {
      SplitPiecesAreDigits(s[1..]);
      var rest := Split(s[1..]);
      if s[0] != ',' {
        assert forall k :: 0 <= k < |rest| ==> AllDigits(rest[k]);
        var first := [s[0]] + rest[0];
        assert AllDigits(first) by {
          forall i | 0 <= i < |first| ensures IsDigit(first[i]) {
            if i > 0 { assert first[i] == rest[0][i - 1]; }
          }
        }
        assert Split(s) == [first] + rest[1..];
      }
    }
  }

  /** The numeral of `n` reads back as `n`. */
  lemma {:induction false} ParseShow(n: nat)
    ensures ParseNat(ShowNat(n)) == n
  {
    if n >= 10 {
      ParseShow(n / 10);
      var s := ShowNat(n);
      assert s[..|s| - 1] == ShowNat(n / 10);
    }
  }

  /** A comma-free prefix joins the first piece of what follows it. */
  lemma {:induction false} SplitPrefix(p: string, tail: string)
    requires NoComma(p)
    ensures Split(p + tail) == [p + Split(tail)[0]] + Split(tail)[1..]
    decreases |p|
  {
    if |p| > 0 {
      SplitPrefix(p[1..], tail);
      assert (p + tail)[1..] == p[1..] + tail;
      assert (p + tail)[0] == p[0] != ',';
      assert [p[0]] + (p[1..] + Split(tail)[0]) == p + Split(tail)[0];
    } else {
      var r := Split(tail);
      assert p + tail == tail;
      assert p + r[0] == r[0];
      assert [r[0]] + r[1..] == r;
    }
  }

  /** Splitting undoes joining comma-free pieces. */
  lemma {:induction false} SplitJoin(parts: seq<string>)
    requires |parts| >= 1
    requires forall k :: 0 <= k < |parts| ==> NoComma(parts[k])
    ensures Split(Join(parts)) == parts
    decreases |parts|
  {
    if |parts| == 1 {
      SplitPrefix(parts[0], "");
      assert parts[0] + "" == parts[0];
    } else {
      var rest := Join(parts[1..]);
      SplitJoin(parts[1..]);
      assert parts[0] + "," + rest == parts[0] + ("," + rest);
      SplitPrefix(parts[0], "," + rest);
      assert ("," + rest)[1..] == rest;
      assert Split("," + rest) == [""] + Split(rest);
      assert parts[0] + "" == parts[0];
      assert parts == [parts[0]] + parts[1..];
    }
  }

  lemma {:induction false} JoinReadable(parts: seq<string>)
    requires |parts| >= 1
    requires forall k :: 0 <= k < |parts| ==> AllDigits(parts[k])
    ensures Readable(Join(parts))
    decreases |parts|
  {
    if |parts| > 1 {
      JoinReadable(parts[1..]);
      var j := Join(parts);
      var rest := Join(parts[1..]);
      assert j == parts[0] + "," + rest;
      forall i | 0 <= i < |j| ensures j[i] == ',' || IsDigit(j[i]) {
        if i < |parts[0]| {
          assert j[i] == parts[0][i];
        } else if i > |parts[0]| {
          assert j[i] == rest[i - |parts[0]| - 1];
        }
      }
    }
  }

  /** A shape written as comma-separated numerals reads back as itself. */
  lemma ParseFormat(dims: seq<nat>)
    requires |dims| >= 1
    ensures Readable(Format(dims)) && Parse(Format(dims)) == dims
  {
    var parts := seq(|dims|, k requires 0 <= k < |dims| => ShowNat(dims[k]));
    forall k | 0 <= k < |parts| ensures NoComma(parts[k]) && AllDigits(parts[k]) {
      assert AllDigits(ShowNat(dims[k]));
    }
    JoinReadable(parts);
    SplitJoin(parts);
    var p := Parse(Format(dims));
    forall k | 0 <= k < |dims| ensures p[k] == dims[k] {
      ParseShow(dims[k]);
    }
  }
}

=== FILE: typed_arrays.dfy ===
/** Typed arrays as the shaped views use them: an element type, a shared
    byte storage (the ArrayBuffer, identified by `id`), and a window of
    `length` elements starting `byteOffset` bytes into it. Element values are
    their bytes; nothing here interprets them as numbers. */
module TypedArrays {
  import opened Common

  /** The typed-array constructors of the `types` table. */
  datatype Dtype =
    | Int8 | Uint8 | Int16 | Uint16 | Int32 | Uint32
    | Int64 | Uint64 | Float32 | Float64 | Uint8Clamped

  function ElementSize(d: Dtype): (n: nat)
    ensures n == 1 || n == 2 || n == 4 || n == 8
  {
    match d
    case Int8 => 1
    case Uint8 => 1
    case Uint8Clamped => 1
    case Int16 => 2
    case Uint16 => 2
    case Int32 => 4
    case Uint32 => 4
    case Float32 => 4
    case Int64 => 8
    case Uint64 => 8
    case Float64 => 8
  }

  /** `ctorToType`: the tag a constructor is registered under. */
  function TagOf(d: Dtype): string {
    match d
    case Int8 => "int8"
    case Uint8 => "uint8"
    case Int16 => "int16"
    case Uint16 => "uint16"
    case Int32 => "int32"
    case Uint32 => "uint32"
    case Int64 => "int64"
    case Uint64 => "uint64"
    case Float32 => "float32"
    case Float64 => "float64"
    case Uint8Clamped => "uint8Clamped"
  }

  /** `typeToCtor.get`: the constructor of a tag, if it is one. */
  function CtorOf(tag: string): Option<Dtype> {
    if tag == "int8" then Some(Int8)
    else if tag == "uint8" then Some(Uint8)
    else if tag == "int16" then Some(Int16)
    else if tag == "uint16" then Some(Uint16)
    else if tag == "int32" then Some(Int32)
    else if tag == "uint32" then Some(Uint32)
    else if tag == "int64" then Some(Int64)
    else if tag == "uint64" then Some(Uint64)
    else if tag == "float32" then Some(Float32)
    else if tag == "float64" then Some(Float64)
    else if tag == "uint8Clamped" then Some(Uint8Clamped)
    else None
  }

  /** The two maps built from the `types` table are inverse to each other. */
  lemma TagMapsInvert(d: Dtype, tag: string)
    ensures CtorOf(TagOf(d)) == Some(d)
    ensures CtorOf(tag) == Some(d) ==> TagOf(d) == tag
  {
  }

  /** An ArrayBuffer: its identity and its bytes. */
  datatype Storage = Storage(id: nat, bytes: seq<byte>)

  datatype TypedArray = TypedArray(dtype: Dtype, store: Storage, byteOffset: nat, length: nat)

  function ByteLength(a: TypedArray): nat {
    a.length * ElementSize(a.dtype)
  }

  predicate Valid(a: TypedArray) {
    a.byteOffset + ByteLength(a) <= |a.store.bytes|
  }

  /** The bytes the array's elements occupy. */
  function Bytes(a: TypedArray): (r: seq<byte>)
    requires Valid(a)
    ensures |r| == ByteLength(a)
  {
    a.store.bytes[a.byteOffset..a.byteOffset + ByteLength(a)]
  }

  /** The bytes of the `n` elements of `a` from element `p`. */
  function ElementBytes(a: TypedArray, p: nat, n: nat): (r: seq<byte>)
    requires Valid(a) && p + n <= a.length
    ensures p * ElementSize(a.dtype) <= (p + n) * ElementSize(a.dtype) <= ByteLength(a)
    ensures |r| == n * ElementSize(a.dtype)
  {
    var k := ElementSize(a.dtype);
    MulAdd(p, n, k);
    MulLe(p + n, a.length, k);
    Bytes(a)[p * k..(p + n) * k]
  }

  /** `new Ctor(n)`: a fresh zero-filled storage of exactly `n` elements. */
  function Alloc(d: Dtype, n: nat, id: nat): (a: TypedArray)
    ensures Valid(a) && a.length == n && a.byteOffset == 0 && a.dtype == d
    ensures a.store.id == id && |a.store.bytes| == ByteLength(a)
    ensures Bytes(a) == a.store.bytes == Zeros(n * ElementSize(d))
  {
    var z := Zeros(n * ElementSize(d));
    assert z[0..|z|] == z;
    TypedArray(d, Storage(id, z), 0, n)
  }

  /** `new Ctor(arrayBuffer)`: a view of a whole storage, refused (a
      RangeError) when the storage is not a whole number of elements. */
  function OverStorage(d: Dtype, s: Storage): (r: Option<TypedArray>)
    ensures r.Some? <==> |s.bytes| % ElementSize(d) == 0
    ensures r.Some? ==>
      Valid(r.value) && r.value.store == s && r.value.dtype == d && r.value.byteOffset == 0 && Bytes(r.value) == s.bytes
  {
    if |s.bytes| % ElementSize(d) == 0 then
      var a := TypedArray(d, s, 0, |s.bytes| / ElementSize(d));
      assert ByteLength(a) == |s.bytes|;
      Some(a)
    else None
  }

  /** A relative index as `subarray` and `Array.prototype.slice` read it:
      negative counts from the end, and the result is clamped to [0, len]. */
  function Relative(i: int, len: nat): (r: nat)
    ensures r <= len
    ensures 0 <= i <= len ==> r == i
  {
    if i < 0 then Max(len + i, 0) else Min(i, len)
  }

  lemma MulLe(a: nat, b: nat, k: nat)
    requires a <= b
    ensures a * k <= b * k
  {
  }

  lemma MulAdd(a: nat, b: nat, k: nat)
    ensures (a + b) * k == a * k + b * k
  {
  }

  /** `n` whole elements are a whole number of elements. */
  lemma WholeElements(n: nat, d: Dtype)
    ensures (n * ElementSize(d)) % ElementSize(d) == 0
    ensures (n * ElementSize(d)) / ElementSize(d) == n
  {
    match d
    case Int8 =>
    case Uint8 =>
    case Uint8Clamped =>
    case Int16 =>
    case Uint16 =>
    case Int32 =>
    case Uint32 =>
    case Float32 =>
    case Int64 =>
    case Uint64 =>
    case Float64 =>
  }

  /** `TypedArray.prototype.subarray`: a new window over the same storage,
      never a copy. */
  function Subarray(a: TypedArray, begin: int, end: int): (r: TypedArray)
    requires Valid(a)
    ensures Valid(r) && r.store == a.store && r.dtype == a.dtype
    ensures r.length == Max(Relative(end, a.length) - Relative(begin, a.length), 0)
    ensures r.byteOffset == a.byteOffset + Relative(begin, a.length) * ElementSize(a.dtype)
  {
    var s := Relative(begin, a.length);
    var e := Relative(end, a.length);
    var n := Max(e - s, 0);
    var k := ElementSize(a.dtype);
    MulAdd(s, n, k);
    MulLe(s + n, a.length, k);
    TypedArray(a.dtype, a.store, a.byteOffset + s * k, n)
  }

  /** A subarray holds exactly the bytes of the elements it selects. */
  lemma SubarrayBytes(a: TypedArray, begin: int, end: int)
    requires Valid(a)
    ensures var s := Relative(begin, a.length);
      var r := Subarray(a, begin, end);
      var k := ElementSize(a.dtype);
      && (s + r.length) * k <= ByteLength(a)
      && Bytes(r) == Bytes(a)[s * k..(s + r.length) * k]
  {
    var s := Relative(begin, a.length);
    var r := Subarray(a, begin, end);
    var k := ElementSize(a.dtype);
    var p: nat := s * k;
    var q: nat := r.length * k;
    MulAdd(s, r.length, k);
    MulLe(s + r.length, a.length, k);
    assert r.byteOffset == a.byteOffset + p && ByteLength(r) == q && p + q <= ByteLength(a);
    WindowOfWindow(a.store.bytes, a.byteOffset, a.byteOffset + ByteLength(a), a.byteOffset + p, a.byteOffset + p + q);
  }

  /** A window of a window is a window of the whole. */
  lemma WindowOfWindow<T>(b: seq<T>, lo: nat, hi: nat, x: nat, y: nat)
    requires lo <= x <= y <= hi <= |b|
    ensures b[x..y] == b[lo..hi][x - lo..y - lo]
  {
    forall i | 0 <= i < y - x ensures b[x..y][i] == b[lo..hi][x - lo..y - lo][i] {
      assert b[x..y][i] == b[x + i];
      assert b[lo..hi][x - lo..y - lo][i] == b[lo..hi][x - lo + i];
    }
  }

  /** A subarray whose bounds are already in range holds exactly the `n`
      elements from `off`. */
  lemma SubarrayInRange(a: TypedArray, off: nat, n: nat)
    requires Valid(a) && off + n <= a.length
    ensures var r := Subarray(a, off, off + n);
      var k := ElementSize(a.dtype);
      && r.length == n
      && off * k <= (off + n) * k <= ByteLength(a)
      && Bytes(r) == Bytes(a)[off * k..(off + n) * k]
  {
    SubarrayBytes(a, off, off + n);
    MulLe(off, off + n, ElementSize(a.dtype));
  }

  lemma RelativeSpan(b: int, n: nat, len: nat)
    ensures Relative(b + n, len) - Relative(b, len) <= n
  {
  }

  /** The `n` elements from `off`, as `_reshape` and `toBuffer` take them:
      the array itself when that is all of it, else a subarray. */
  function Window(a: TypedArray, off: int, n: nat): (t: TypedArray)
    requires Valid(a)
    ensures Valid(t) && t.store == a.store && t.dtype == a.dtype && t.length <= n
    ensures 0 <= off && off + n <= a.length ==> var k := ElementSize(a.dtype);
      && t.length == n
      && off * k <= (off + n) * k <= ByteLength(a)
      && Bytes(t) == Bytes(a)[off * k..(off + n) * k]
  {
    if off == 0 && n == a.length then
      assert Bytes(a)[0..ByteLength(a)] == Bytes(a);
      a
    else
      RelativeSpan(off, n, a.length);
      if 0 <= off && off + n <= a.length then
        SubarrayInRange(a, off, n);
        Subarray(a, off, off + n)
      else
        Subarray(a, off, off + n)
  }

  /** `new Uint8Array(buffer, byteOffset, byteLength)`: the same bytes seen
      one octet per element. */
  function ByteView(a: TypedArray): (r: TypedArray)
    requires Valid(a)
    ensures Valid(r) && r.dtype == Uint8 && r.store == a.store && Bytes(r) == Bytes(a)
    ensures r.length == ByteLength(a)
  {
    TypedArray(Uint8, a.store, a.byteOffset, ByteLength(a))
  }
}

=== FILE: virtual_file.dfy ===
/** The in-memory file that backs the engine's descriptors: a growable byte
    store with a cursor (`pos`) and a logical length (`size`). `read` and
    `write` move bytes between the store and regions of the engine's linear
    memory, given as (start, length) pairs. */
module VirtualFile {
  import opened Common

  /** Capacity doubles until a step would exceed this, then grows by it. */
  const GrowthStep: nat := 65536

  const WhenceSet: int := 0
  const WhenceCur: int := 1
  const WhenceEnd: int := 2

  /** `buffer` is the whole store (its length is the capacity). */
  datatype File = File(buffer: seq<byte>, pos: int, size: int)

  /** One (start, length) pair of an iovec list. */
  datatype Region = Region(start: nat, len: nat)

  predicate Valid(f: File) {
    0 <= f.pos && 0 <= f.size <= |f.buffer|
  }

  /** A file created from a number: that capacity, nothing written yet. */
  function FromCapacity(n: nat): (f: File)
    ensures Valid(f) && |f.buffer| == n && f.pos == 0 && Data(f) == []
  {
    File(Zeros(n), 0, 0)
  }

  /** A file wrapping existing bytes: all of them are its contents. */
  function FromBytes(b: seq<byte>): (f: File)
    ensures Valid(f) && f.pos == 0 && Data(f) == b
  {
    File(b, 0, |b|)
  }

  /** The bytes `getData` exposes: the logical prefix of the store. */
  function Data(f: File): (d: seq<byte>)
    requires Valid(f)
    ensures |d| == f.size && d <= f.buffer
  {
    f.buffer[..f.size]
  }

  // ---------------------------------------------------------------------------
  // Capacity growth

  /** One growth step: double while small, then add a fixed 64 KiB. */
  function Step(s: nat): nat {
    s + Min(s, GrowthStep)
  }

  /** Capacity after `k` growth steps from `s`. */
  function Steps(s: nat, k: nat): nat
    decreases k
  {
    if k == 0 then s else Steps(Step(s), k - 1)
  }

  /** The do-while loop of `#grow`: step at least once, then keep stepping
      while the requested size is still larger. */
  function GrowFrom(s: nat, need: int): (r: nat)
    requires s >= 1
    ensures r > s && r >= need
    ensures s < need ==> r < need + GrowthStep && r < 2 * need
    ensures s >= need ==> r == Step(s)
    decreases if need > s then need - s else 0
  {
    var next := Step(s);
    if need > next then GrowFrom(next, need) else next
  }

  /** The capacity `#grow(need)` leaves behind, from capacity `cap`. */
  function Capacity(cap: nat, need: int): (r: nat)
    ensures need <= cap ==> r == cap
    ensures need > cap ==> need <= r < need + GrowthStep
    ensures need > cap ==> r < 2 * need || (cap == 0 && r == 16)
  {
    if need > cap then GrowFrom(if cap < 1 then 8 else cap, need) else cap
  }

  /** The grown capacity is the first value of the step sequence, counting
      at least one step, that reaches the requested size. */
  lemma {:induction false} GrowFromIsFirstReaching(s: nat, need: int) returns (k: nat)
    requires s >= 1
    ensures k >= 1 && GrowFrom(s, need) == Steps(s, k)
    ensures forall j :: 1 <= j < k ==> Steps(s, j) < need
    decreases if need > s then need - s else 0
  {
    var next := Step(s);
    if need > next {
      var k' := GrowFromIsFirstReaching(next, need);
      k := k' + 1;
      forall j | 1 <= j < k
        ensures Steps(s, j) < need
      {
        if j > 1 {
          assert Steps(s, j) == Steps(next, j - 1);
        }
      }
    } else {
      k := 1;
    }
  }

  /** Past 64 KiB growth is linear: capacity moves in whole 64 KiB steps. */
  lemma {:induction false} LinearGrowth(s: nat, need: int)
    requires s >= GrowthStep
    ensures (GrowFrom(s, need) - s) % GrowthStep == 0
    decreases if need > s then need - s else 0
  {
    var next := Step(s);
    assert next == s + GrowthStep;
    if need > next {
      LinearGrowth(next, need);
    }
  }

  /** `#grow`: enlarge the store when `need` exceeds the capacity, keeping
      every old byte; the new tail is zero. */
  function Grow(f: File, need: int): (g: File)
    ensures g.pos == f.pos && g.size == f.size
    ensures |g.buffer| == Capacity(|f.buffer|, need) >= |f.buffer|
    ensures g.buffer[..|f.buffer|] == f.buffer
    ensures forall i :: |f.buffer| <= i < |g.buffer| ==> g.buffer[i] == 0
  {
    if need > |f.buffer| then
      f.(buffer := f.buffer + Zeros(Capacity(|f.buffer|, need) - |f.buffer|))
    else
      f
  }

  // ---------------------------------------------------------------------------
  // Regions of linear memory

  function Total(iovs: seq<Region>): nat {
    if |iovs| == 0 then 0 else iovs[0].len + Total(iovs[1..])
  }

  predicate Fits(r: Region, memSize: nat) {
    r.start + r.len <= memSize
  }

  predicate AllFit(iovs: seq<Region>, memSize: nat) {
    forall i :: 0 <= i < |iovs| ==> Fits(iovs[i], memSize)
  }

  lemma AllFitCons(iovs: seq<Region>, memSize: nat)
    requires |iovs| > 0
    ensures AllFit(iovs, memSize) <==> Fits(iovs[0], memSize) && AllFit(iovs[1..], memSize)
  {
    if Fits(iovs[0], memSize) && AllFit(iovs[1..], memSize) {
      forall i | 0 <= i < |iovs| ensures Fits(iovs[i], memSize) {
        if i > 0 { assert iovs[i] == iovs[1..][i - 1]; }
      }
    }
  }

  /** The bytes the regions name, in order. */
  function Gather(mem: seq<byte>, iovs: seq<Region>): (r: seq<byte>)
    requires AllFit(iovs, |mem|)
    ensures |r| == Total(iovs)
  {
    if |iovs| == 0 then []
    else mem[iovs[0].start..iovs[0].start + iovs[0].len] + Gather(mem, iovs[1..])
  }

  /** Copy `data` into `mem` at `at`. */
  function Splice(mem: seq<byte>, at: nat, data: seq<byte>): (r: seq<byte>)
    requires at + |data| <= |mem|
    ensures |r| == |mem|
    ensures r[at..at + |data|] == data
    ensures forall i :: 0 <= i < |mem| && !(at <= i < at + |data|) ==> r[i] == mem[i]
  {
    mem[..at] + data + mem[at + |data|..]
  }

  // ---------------------------------------------------------------------------
  // write

  /** What writing `content` at the cursor of `f` leaves in `g`: the cursor
      moves past it, `size` covers it, the bytes sit at the old cursor, and
      every other byte is the old one (or zero where the store grew). */
  ghost predicate WriteEffect(f: File, g: File, content: seq<byte>) {
    && Valid(g)
    && g.pos == f.pos + |content|
    && g.size == Max(f.size, f.pos + |content|)
    && |g.buffer| >= |f.buffer|
    && 0 <= f.pos
    && g.buffer[f.pos..f.pos + |content|] == content
    && (forall i :: 0 <= i < |f.buffer| && !(f.pos <= i < f.pos + |content|) ==> g.buffer[i] == f.buffer[i])
    && (forall i :: |f.buffer| <= i < |g.buffer| && !(f.pos <= i < f.pos + |content|) ==> g.buffer[i] == 0)
  }

  /** One iteration of `write`: extend `size`, grow, copy, advance. */
  function WriteOne(f: File, data: seq<byte>): (g: File)
    requires Valid(f)
    ensures WriteEffect(f, g, data)
  {
    var newPos := f.pos + |data|;
    var grown := Grow(f, newPos);
    var b := grown.buffer;
    assert forall i :: 0 <= i < |f.buffer| ==> b[i] == f.buffer[i] by {
      forall i | 0 <= i < |f.buffer| ensures b[i] == f.buffer[i] {
        assert b[..|f.buffer|][i] == b[i];
      }
    }
    File(b[..f.pos] + data + b[newPos..], newPos, Max(f.size, newPos))
  }

  /** Two writes in a row have the effect of one write of both contents. */
  lemma WriteEffectCompose(f: File, f1: File, g: File, a: seq<byte>, b: seq<byte>)
    requires WriteEffect(f, f1, a) && WriteEffect(f1, g, b)
    ensures WriteEffect(f, g, a + b)
  {
    ComposedContent(f, f1, g, a, b);
    ComposedKeeps(f, f1, g, a, b);
    ComposedZeros(f, f1, g, a, b);
  }

  lemma ComposedContent(f: File, f1: File, g: File, a: seq<byte>, b: seq<byte>)
    requires WriteEffect(f, f1, a) && WriteEffect(f1, g, b)
    ensures f.pos + |a| + |b| <= |g.buffer| && g.buffer[f.pos..f.pos + |a| + |b|] == a + b
  {
    var p := f.pos;
    var m := |a|;
    var n := |b|;
    assert f1.pos == p + m && p + m <= |f1.buffer|;
    assert f1.buffer[p..p + m] == a;
    assert g.buffer[p + m..p + m + n] == b;
    forall i | p <= i < p + m
      ensures g.buffer[i] == f1.buffer[i]
    {
    }
    assert g.buffer[p..p + m] == f1.buffer[p..p + m];
    assert g.buffer[p..p + m + n] == g.buffer[p..p + m] + g.buffer[p + m..p + m + n];
  }

  lemma ComposedKeeps(f: File, f1: File, g: File, a: seq<byte>, b: seq<byte>)
    requires WriteEffect(f, f1, a) && WriteEffect(f1, g, b)
    ensures forall i :: 0 <= i < |f.buffer| && !(f.pos <= i < f.pos + |a + b|) ==> g.buffer[i] == f.buffer[i]
  {
    forall i | 0 <= i < |f.buffer| && !(f.pos <= i < f.pos + |a + b|)
      ensures g.buffer[i] == f.buffer[i]
    {
      assert g.buffer[i] == f1.buffer[i];
    }
  }

  lemma ComposedZeros(f: File, f1: File, g: File, a: seq<byte>, b: seq<byte>)
    requires WriteEffect(f, f1, a) && WriteEffect(f1, g, b)
    ensures forall i :: |f.buffer| <= i < |g.buffer| && !(f.pos <= i < f.pos + |a + b|) ==> g.buffer[i] == 0
  {
    forall i | |f.buffer| <= i < |g.buffer| && !(f.pos <= i < f.pos + |a + b|)
      ensures g.buffer[i] == 0
    {
      if i < |f1.buffer| {
        assert g.buffer[i] == f1.buffer[i];
      }
    }
  }

  /** `write`: copy every region in turn to the cursor. A region that does
      not fit in linear memory raises, which ends the call. */
  function Write(f: File, mem: seq<byte>, iovs: seq<Region>): (r: Result<(File, nat), Fault>)
    requires Valid(f)
    ensures r.Ok? <==> AllFit(iovs, |mem|)
    ensures |iovs| == 0 ==> r == Ok((f, 0))
    ensures r.Ok? && |iovs| > 0 ==>
      r.value.1 == Total(iovs) && WriteEffect(f, r.value.0, Gather(mem, iovs))
    decreases |iovs|
  {
    if |iovs| == 0 then Ok((f, 0))
    else if !Fits(iovs[0], |mem|) then Err(ViewOutOfBounds)
    else
      var data := mem[iovs[0].start..iovs[0].start + iovs[0].len];
      var f1 := WriteOne(f, data);
      var tail := iovs[1..];
      var rest := Write(f1, mem, tail);
      AllFitCons(iovs, |mem|);
      if rest.Err? then
        Err(rest.error)
      else
        var (g, n) := rest.value;
        assert Gather(mem, iovs) == data + Gather(mem, tail);
        if |tail| == 0 then
          assert data + Gather(mem, tail) == data;
          Ok((g, n + |data|))
        else
          WriteEffectCompose(f, f1, g, data, Gather(mem, tail));
          Ok((g, n + |data|))
  }

  // ---------------------------------------------------------------------------
  // read

  /** `read`: fill each region from the cursor; a region that would pass
      `size` gets only what is left, and the loop stops there. */
  function Read(f: File, mem: seq<byte>, iovs: seq<Region>): (r: Result<(File, seq<byte>, nat), Fault>)
    requires Valid(f)
    ensures f.pos > f.size && |iovs| > 0 ==> r.Err?
    ensures AllFit(iovs, |mem|) && f.pos <= f.size ==> r.Ok?
    ensures r.Ok? ==>
      var (g, mem', n) := r.value;
      && g == f.(pos := f.pos + n)
      && (f.pos <= f.size ==> n == Min(Total(iovs), f.size - f.pos))
      && g.pos == f.pos + n
      && |mem'| == |mem|
    decreases |iovs|
  {
    if |iovs| == 0 then Ok((f, mem, 0))
    else
      var io := iovs[0];
      if !Fits(io, |mem|) then Err(ViewOutOfBounds)
      else if f.pos + io.len > f.size then
        if f.pos > f.size then Err(NegativeViewLength)
        else Ok((f.(pos := f.size), Splice(mem, io.start, f.buffer[f.pos..f.size]), f.size - f.pos))
      else
        var mem1 := Splice(mem, io.start, f.buffer[f.pos..f.pos + io.len]);
        assert AllFit(iovs, |mem|) ==> AllFit(iovs[1..], |mem1|) by {
          if AllFit(iovs, |mem|) {
            forall i | 0 <= i < |iovs[1..]| ensures Fits(iovs[1..][i], |mem1|) { assert iovs[1..][i] == iovs[i + 1]; }
          }
        }
        var rest :- Read(f.(pos := f.pos + io.len), mem1, iovs[1..]);
        Ok((rest.0, rest.1, rest.2 + io.len))
  }

  /** A read into a single region delivers the bytes at the cursor. */
  lemma ReadOneRegion(f: File, mem: seq<byte>, io: Region)
    requires Valid(f) && f.pos <= f.size && Fits(io, |mem|)
    ensures Read(f, mem, [io]).Ok?
    ensures var (g, mem', n) := Read(f, mem, [io]).value;
      n == Min(io.len, f.size - f.pos) && mem'[io.start..io.start + n] == f.buffer[f.pos..f.pos + n]
  {
    assert AllFit([io], |mem|);
  }

  // ---------------------------------------------------------------------------
  // seek

  /** `seek`: compute the target for SET/CUR/END and commit it only when it
      is not negative; an unknown whence answers -1. The target is not
      clamped to `size`. */
  function Seek(f: File, offset: int, whence: int): (r: (File, int))
    ensures whence != WhenceSet && whence != WhenceCur && whence != WhenceEnd ==> r == (f, -1)
    ensures whence == WhenceSet ==> r.1 == offset
    ensures whence == WhenceCur ==> r.1 == f.pos + offset
    ensures whence == WhenceEnd ==> r.1 == f.size + offset
    ensures r.1 >= 0 ==> r.0 == f.(pos := r.1)
    ensures r.1 < 0 ==> r.0 == f
  {
    var target :=
      if whence == WhenceSet then offset
      else if whence == WhenceCur then f.pos + offset
      else if whence == WhenceEnd then f.size + offset
      else -1;
    if target >= 0 then (f.(pos := target), target) else (f, target)
  }

  lemma SeekProperties(f: File, offset: int, whence: int)
    requires Valid(f)
    ensures Seek(f, 0, WhenceCur) == (f, f.pos)
    ensures Seek(f, 0, WhenceEnd) == (f.(pos := f.size), f.size)
    ensures Seek(f, offset, whence).1 < 0 ==> Seek(f, offset, whence).0.pos == f.pos
    ensures Valid(Seek(f, offset, whence).0)
  {
  }

  /** Writing bytes at position 0 of a fresh file, seeking back to 0 and
      reading the same number of bytes returns exactly those bytes. */
  lemma WriteSeekReadRoundTrip(cap: nat, mem: seq<byte>, src: Region, dst: Region)
    requires Fits(src, |mem|) && Fits(dst, |mem|) && dst.len == src.len
    ensures
      var w := Write(FromCapacity(cap), mem, [src]);
      && w.Ok? && w.value.1 == src.len
      && var (f2, at) := Seek(w.value.0, 0, WhenceSet);
      && at == 0
      && var rd := Read(f2, mem, [dst]);
      && rd.Ok?
      && rd.value.2 == src.len
      && rd.value.1[dst.start..dst.start + src.len] == mem[src.start..src.start + src.len]
  {
    var data := mem[src.start..src.start + src.len];
    var f1 := WriteFromStart(FromCapacity(cap), mem, src);
    var f2 := Seek(f1, 0, WhenceSet).0;
    assert f2 == f1.(pos := 0);
    ReadFromStart(f2, mem, dst, data);
  }

  /** Writing one region at the start of an empty file leaves its bytes as
      the file's prefix and its length as the size. */
  lemma WriteFromStart(f: File, mem: seq<byte>, src: Region) returns (g: File)
    requires Valid(f) && f.pos == 0 && f.size == 0 && Fits(src, |mem|)
    ensures var w := Write(f, mem, [src]);
      && w.Ok? && w.value.1 == src.len && w.value.0 == g
    ensures Valid(g) && g.size == src.len && g.buffer[0..src.len] == mem[src.start..src.start + src.len]
  {
    GatherOne(mem, src);
    var w := Write(f, mem, [src]);
    g := w.value.0;
    assert WriteEffect(f, g, mem[src.start..src.start + src.len]);
  }

  /** Reading `|data|` bytes from position 0 of a file whose prefix is
      `data` delivers `data`. */
  lemma ReadFromStart(f: File, mem: seq<byte>, dst: Region, data: seq<byte>)
    requires Valid(f) && f.pos == 0 && f.size == |data| && f.buffer[0..|data|] == data
    requires Fits(dst, |mem|) && dst.len == |data|
    ensures var rd := Read(f, mem, [dst]);
      && rd.Ok? && rd.value.2 == |data| && rd.value.1[dst.start..dst.start + |data|] == data
  {
    ReadOneRegion(f, mem, dst);
  }

  /** Writing `data` (held in one region) to an empty file makes it the
      file's whole contents. */
  lemma WriteFreshData(f: File, data: seq<byte>)
    requires Valid(f) && f.pos == 0 && f.size == 0
    ensures Write(f, data, [Region(0, |data|)]).Ok?
    ensures Data(Write(f, data, [Region(0, |data|)]).value.0) == data
  {
    var io := Region(0, |data|);
    GatherOne(data, io);
    assert data[0..|data|] == data;
    var r := Write(f, data, [io]);
    EmptyFileTakesContent(f, r.value.0, data);
  }

  lemma GatherOne(mem: seq<byte>, io: Region)
    requires Fits(io, |mem|)
    ensures AllFit([io], |mem|) && Gather(mem, [io]) == mem[io.start..io.start + io.len]
  {
    assert AllFit([io], |mem|);
    assert Gather(mem, [io]) == mem[io.start..io.start + io.len] + Gather(mem, []);
  }

  lemma EmptyFileTakesContent(f: File, g: File, data: seq<byte>)
    requires f.pos == 0 && f.size == 0 && WriteEffect(f, g, data)
    ensures Data(g) == data
  {
    assert g.size == |data|;
  }
}

=== FILE: wasi_shims.dfy ===
/** The `fd_read`, `fd_write`, `fd_seek` and `fd_close` imports: each looks
    the descriptor up in the instance's sparse table of virtual files and
    answers 0, or a negated WASI error number. Values the host stores through
    out-pointers (bytes read, bytes written, new offset) are returned as
    `out` instead. */
module WasiShims {
  import opened Common
  import opened VirtualFile

  const ErrnoBadf: int := 8
  const ErrnoInval: int := 28

  /** The descriptor table is null outside file operations. */
  datatype FdTable = Closed | Open(files: seq<Option<File>>)

  datatype Reply = Reply(code: int, fds: FdTable, mem: seq<byte>, out: Option<int>)

  predicate TableValid(t: FdTable) {
    t.Open? ==> forall i :: 0 <= i < |t.files| && t.files[i].Some? ==> Valid(t.files[i].value)
  }

  /** No file behind `fd`: out of range, or a null entry. */
  predicate Missing(t: FdTable, fd: int)
    requires t.Open?
  {
    fd < 0 || fd >= |t.files| || t.files[fd].None?
  }

  function FileAt(t: FdTable, fd: int): (f: File)
    requires t.Open? && !Missing(t, fd)
  {
    t.files[fd].value
  }

  /** The table with the file behind `fd` replaced. */
  function Update(t: FdTable, fd: int, f: File): (u: FdTable)
    requires t.Open? && !Missing(t, fd)
    ensures u.Open? && |u.files| == |t.files| && u.files[fd] == Some(f)
    ensures forall i :: 0 <= i < |t.files| && i != fd ==> u.files[i] == t.files[i]
  {
    Open(t.files[fd := Some(f)])
  }

  function FdRead(t: FdTable, fd: int, mem: seq<byte>, iovs: seq<Region>): (r: Result<Reply, Fault>)
    requires TableValid(t)
    ensures t.Closed? ==> r == Err(NoDescriptorTable)
    ensures t.Open? && Missing(t, fd) ==> r == Ok(Reply(-ErrnoBadf, t, mem, None))
    ensures t.Open? && !Missing(t, fd) && AllFit(iovs, |mem|) && FileAt(t, fd).pos <= FileAt(t, fd).size ==> r.Ok?
    ensures r.Ok? && t.Open? && !Missing(t, fd) ==>
      var f := FileAt(t, fd);
      && r.value.code == 0
      && r.value.out.Some?
      && (f.pos <= f.size ==> r.value.out.value == Min(Total(iovs), f.size - f.pos))
      && r.value.fds == Update(t, fd, f.(pos := f.pos + r.value.out.value))
      && |r.value.mem| == |mem|
      && TableValid(r.value.fds)
  {
    if t.Closed? then Err(NoDescriptorTable)
    else if Missing(t, fd) then Ok(Reply(-ErrnoBadf, t, mem, None))
    else
      var res :- Read(FileAt(t, fd), mem, iovs);
      var (g, mem', n) := res;
      Ok(Reply(0, Update(t, fd, g), mem', Some(n)))
  }

  function FdWrite(t: FdTable, fd: int, mem: seq<byte>, iovs: seq<Region>): (r: Result<Reply, Fault>)
    requires TableValid(t)
    ensures t.Closed? ==> r == Err(NoDescriptorTable)
    ensures t.Open? && Missing(t, fd) ==> r == Ok(Reply(-ErrnoBadf, t, mem, None))
    ensures t.Open? && !Missing(t, fd) ==> (r.Ok? <==> AllFit(iovs, |mem|))
    ensures r.Ok? && t.Open? && !Missing(t, fd) ==>
      && r.value.code == 0
      && r.value.out == Some(Total(iovs))
      && r.value.mem == mem
      && r.value.fds.Open? && !Missing(r.value.fds, fd)
      && (|iovs| > 0 ==> WriteEffect(FileAt(t, fd), FileAt(r.value.fds, fd), Gather(mem, iovs)))
      && |r.value.fds.files| == |t.files|
      && (forall i :: 0 <= i < |t.files| && i != fd ==> r.value.fds.files[i] == t.files[i])
      && TableValid(r.value.fds)
  {
    if t.Closed? then Err(NoDescriptorTable)
    else if Missing(t, fd) then Ok(Reply(-ErrnoBadf, t, mem, None))
    else
      var res :- Write(FileAt(t, fd), mem, iovs);
      var (g, n) := res;
      Ok(Reply(0, Update(t, fd, g), mem, Some(n)))
  }

  function FdSeek(t: FdTable, fd: int, mem: seq<byte>, offset: int, whence: int): (r: Result<Reply, Fault>)
    requires TableValid(t)
    ensures t.Closed? ==> r == Err(NoDescriptorTable)
    ensures t.Open? ==> r.Ok?
    ensures t.Open? && Missing(t, fd) ==> r.value == Reply(-ErrnoBadf, t, mem, None)
    ensures t.Open? && !Missing(t, fd) ==>
      var target := Seek(FileAt(t, fd), offset, whence).1;
      && (target < 0 ==> r.value == Reply(-ErrnoInval, t, mem, None))
      && (target >= 0 ==> r.value == Reply(0, Update(t, fd, FileAt(t, fd).(pos := target)), mem, Some(target)))
    ensures r.Ok? ==> TableValid(r.value.fds) && r.value.mem == mem
  {
    if t.Closed? then Err(NoDescriptorTable)
    else if Missing(t, fd) then Ok(Reply(-ErrnoBadf, t, mem, None))
    else
      var (g, target) := Seek(FileAt(t, fd), offset, whence);
      if target < 0 then Ok(Reply(-ErrnoInval, t, mem, None))
      else Ok(Reply(0, Update(t, fd, g), mem, Some(target)))
  }

  /** `fd_close` keeps the file in the table and rewinds it. */
  function FdClose(t: FdTable, fd: int, mem: seq<byte>): (r: Result<Reply, Fault>)
    requires TableValid(t)
    ensures t.Closed? ==> r == Err(NoDescriptorTable)
    ensures t.Open? ==> r.Ok?
    ensures t.Open? && Missing(t, fd) ==> r.value == Reply(-ErrnoBadf, t, mem, None)
    ensures t.Open? && !Missing(t, fd) ==>
      r.value == Reply(0, Update(t, fd, FileAt(t, fd).(pos := 0)), mem, None)
    ensures r.Ok? ==> TableValid(r.value.fds)
  {
    if t.Closed? then Err(NoDescriptorTable)
    else if Missing(t, fd) then Ok(Reply(-ErrnoBadf, t, mem, None))
    else Ok(Reply(0, Update(t, fd, Seek(FileAt(t, fd), 0, WhenceSet).0), mem, None))
  }

  /** Every shim answers 0 or one of the two negated error numbers, and a
      failing call leaves the table as it was. */
  lemma ShimCodes(t: FdTable, fd: int, mem: seq<byte>, iovs: seq<Region>, offset: int, whence: int)
    requires TableValid(t)
    ensures var r := FdRead(t, fd, mem, iovs); r.Ok? ==> r.value.code in {0, -ErrnoBadf} && (r.value.code != 0 ==> r.value.fds == t)
    ensures var r := FdWrite(t, fd, mem, iovs); r.Ok? ==> r.value.code in {0, -ErrnoBadf} && (r.value.code != 0 ==> r.value.fds == t)
    ensures var r := FdSeek(t, fd, mem, offset, whence); r.Ok? ==> r.value.code in {0, -ErrnoBadf, -ErrnoInval} && (r.value.code != 0 ==> r.value.fds == t)
    ensures var r := FdClose(t, fd, mem); r.Ok? ==> r.value.code in {0, -ErrnoBadf} && (r.value.code != 0 ==> r.value.fds == t)
  {
  }
}

=== FILE: world.dfy ===
/** The host object `World`: how each public operation seeds the slot
    table, opens the descriptor table, calls an engine entry point, reads the
    results back from fixed slots and then tears the call down. Also the
    construction guard of the factory and the destructor list. The engine
    and its numerics are the `Engine` model; every operation takes the
    `Numerics` it runs on as a parameter. */
module World {
  import opened Common
  import opened VirtualFile
  import opened WasiShims
  import opened Engine
  import PathRouting

  /** What a `World` method throws. */
  datatype Exception =
    | IllegalConstructor                          // the constructor guard's TypeError
    | InvalidNumber                               // `assertRet`'s RangeError
    | MismatchedFrames(f0Frames: nat, spFrames: nat, apFrames: nat) // synthesis: frame counts differ
    | MismatchedDims(spWidth: int, apWidth: int)  // synthesis: spectral widths differ
    | EngineReport(text: seq<byte>)               // a TypeError carrying what the codec printed
    | UnknownError                                // the same, when nothing was printed
    | Raised(fault: Fault)                        // thrown by a host import, or an engine trap
    | EngineTrap                                  // `_initialize` trapped
    | MissingMeta                                 // indexing the undefined slot 1 in `wavread`

  /** The private state of a `World`: the slot table (`#context`), the
      descriptor table (`#fds`), the pointers announced by `constructNotify`
      (`#ptrs`), and the engine's option globals. */
  datatype World = World(ctx: Option<Context>, fds: FdTable, ptrs: seq<int>, opts: Options)

  /** Between calls: no slots, no descriptors, nothing left to destroy. */
  predicate Idle(w: World) {
    w.ctx.None? && w.fds.Closed? && w.ptrs == []
  }

  /** A finished call: the state after `#destruct`, the pointers handed to
      `_destruct` in order, and what the method returned or threw. */
  datatype Outcome<T> = Outcome(world: World, destructed: seq<int>, result: Result<T, Exception>)

  /** The engine's option globals before anything has initialised them. */
  const Unset: Options := Options(0, 0, 0)

  // ---------------------------------------------------------------------
  // Construction

  /** `new World(instance)`: refused unless the factory's token
      (`currentInstance`) is this very instance; then `_initialize` runs,
      which may trap. */
  function Construct(token: Option<nat>, inst: nat, initTraps: bool): (r: Result<World, Exception>)
    ensures r.Ok? <==> token == Some(inst) && !initTraps
    ensures token != Some(inst) ==> r == Err(IllegalConstructor)
    ensures token == Some(inst) && initTraps ==> r == Err(EngineTrap)
    ensures r.Ok? ==> Idle(r.value) && r.value.opts == Unset
  {
    if token != Some(inst) then Err(IllegalConstructor)
    else if initTraps then Err(EngineTrap)
    else Ok(World(None, Closed, [], Unset))
  }

  /** The factory as written: the token is set, the constructor runs, and
      the token is cleared only if the constructor returned. Returns the
      token afterwards and the construction's result. */
  function CreateWorldAsWritten(inst: nat, initTraps: bool): (r: (Option<nat>, Result<World, Exception>))
    ensures r.1 == Construct(Some(inst), inst, initTraps)
    ensures r.0 == (if initTraps then Some(inst) else None)
  {
    var made := Construct(Some(inst), inst, initTraps);
    if made.Err? then (Some(inst), made) else (None, made)
  }

  /** The factory with the token cleared on every path. */
  function CreateWorld(inst: nat, initTraps: bool): (r: (Option<nat>, Result<World, Exception>))
    ensures r.0 == None
    ensures r.1.Ok? <==> !initTraps
    ensures r.1.Ok? ==> Idle(r.1.value)
  {
    (None, Construct(Some(inst), inst, initTraps))
  }

  /** As written, a trap in `_initialize` leaves the token naming the
      instance, so a later direct `new World(instance)` passes the guard. */
  lemma FactoryLeaksToken(inst: nat)
    ensures var (token, made) := CreateWorldAsWritten(inst, true);
      && made == Err(EngineTrap)
      && token == Some(inst)
      && Construct(token, inst, false).Ok?
  {
  }

  /** With the token always cleared, no construction outside the factory
      passes the guard, whatever happened inside it. */
  lemma FactoryGuards(inst: nat, initTraps: bool, other: nat, laterTraps: bool)
    ensures Construct(CreateWorld(inst, initTraps).0, other, laterTraps) == Err(IllegalConstructor)
  {
  }

  // ---------------------------------------------------------------------
  // The destructor list

  /** `constructNotify(ptr)`: the pointer is appended to the list. */
  function ConstructNotify(w: World, ptr: int): (r: World)
    ensures r.ptrs == w.ptrs + [ptr]
    ensures r.ctx == w.ctx && r.fds == w.fds && r.opts == w.opts
  {
    w.(ptrs := w.ptrs + [ptr])
  }

  /** Several notifications, in order. */
  function NotifyAll(w: World, ps: seq<int>): World
    decreases |ps|
  {
    if |ps| == 0 then w else NotifyAll(ConstructNotify(w, ps[0]), ps[1..])
  }

  /** `#destruct()`: the context and descriptor table are dropped, every
      recorded pointer is passed to `_destruct`, and the list is emptied. */
  function Destruct(w: World): (r: (World, seq<int>))
    ensures Idle(r.0) && r.0.opts == w.opts
    ensures r.1 == w.ptrs
  {
    (World(None, Closed, [], w.opts), w.ptrs)
  }

  /** Notifications are recorded in order, after what was there. */
  lemma {:induction false} NotifyAllRecords(w: World, ps: seq<int>)
    ensures NotifyAll(w, ps).ptrs == w.ptrs + ps
    ensures NotifyAll(w, ps).ctx == w.ctx && NotifyAll(w, ps).fds == w.fds
    decreases |ps|
  {
    if |ps| > 0 {
      NotifyAllRecords(ConstructNotify(w, ps[0]), ps[1..]);
      assert (w.ptrs + [ps[0]]) + ps[1..] == w.ptrs + ps;
    }
  }

  /** Each announced pointer is destroyed exactly once, in announcement
      order, and nothing remains to destroy afterwards. */
  lemma DestructOrder(w: World, ps: seq<int>)
    requires Idle(w)
    ensures Destruct(NotifyAll(w, ps)).1 == ps
    ensures Destruct(Destruct(NotifyAll(w, ps)).0).1 == []
  {
    NotifyAllRecords(w, ps);
  }

  /** The end of every operation: `#destruct` in the `finally` block. */
  function Finish<T>(w: World, opts: Options, result: Result<T, Exception>): (o: Outcome<T>)
    ensures Idle(o.world) && o.world.opts == opts && o.destructed == w.ptrs && o.result == result
  {
    var (after, calls) := Destruct(w.(opts := opts));
    Outcome(after, calls, result)
  }

  // ---------------------------------------------------------------------
  // Return codes

  /** `assertRet(ret)`: a negative number is rejected. An entry point
      declared `void` returns `undefined` (here `None`), which is never
      less than 0 and so always passes. */
  function AssertRet(ret: Option<int>): (r: Result<(), Exception>)
    ensures r.Ok? <==> ret.None? || ret.value >= 0
    ensures r.Err? ==> r.error == InvalidNumber
  {
    if ret.Some? && ret.value < 0 then Err(InvalidNumber) else Ok(())
  }

  // ---------------------------------------------------------------------
  // Analysis

  datatype DioResult = DioResult(f0: seq<F64>, timeAxis: seq<F64>)

  datatype CheapTrickResult = CheapTrickResult(fftSize: int, spectrogram: Slot)

  function Flag(b: bool): int {
    if b then 1 else 0
  }

  /** What an estimator's slots 2 and 1 hold after `n` frames. */
  predicate EstimatedAs(e: Numerics, d: DioResult, x: seq<F64>, fs: int, n: nat, frame: nat -> (F64, F64), refine: bool) {
    && d.timeAxis == Axis(n, frame)
    && d.f0 == (if refine then Refine(e, x, fs, Axis(n, frame), Contour(n, frame), n) else Contour(n, frame))
  }

  /** `dio(x, fs, frame_period, withStoneMask)`: the signal goes into slot 0,
      the options are reset for `fs`, and the answer is read from slots 2
      (f0) and 1 (time axis). */
  function Dio(e: Numerics, w: World, x: seq<F64>, fs: int, period: F64, withStoneMask: bool): (o: Outcome<DioResult>)
    ensures Idle(o.world) && o.destructed == w.ptrs
    ensures o.world.opts == Init(e, fs).0.(dioPeriod := period)
    ensures o.result.Ok? <==> e.dioFrames(fs, |x|, period) >= 0
    ensures e.dioFrames(fs, |x|, period) < 0 ==> o.result == Err(Raised(Abort))
    ensures o.result.Ok? ==> var n: nat := e.dioFrames(fs, |x|, period);
      && |o.result.value.f0| == |o.result.value.timeAxis| == n
      && EstimatedAs(e, o.result.value, x, fs, n, DioFrame(e, x, fs, period), withStoneMask)
  {
    var ctx := map[SignalSlot := Vec(x)];
    var (opts, _) := Init(e, fs);
    ReadVecExact(ctx, SignalSlot, e);
    var r := EngineDio(e, opts, ctx, |x|, fs, period, Flag(withStoneMask));
    if r.Err? then Finish(w, opts.(dioPeriod := period), Err(Raised(r.error)))
    else
      var (c, opts') := r.value;
      Finish(w, opts', Ok(DioResult(c[F0Slot].v, c[TimeSlot].v)))
  }

  /** `harvest(x, fs, frame_period, withStoneMask)`: as `dio`. The number of
      frames comes from the DIO option's period, which the reset for `fs`
      has just set to its default, whatever `frame_period` is. */
  function Harvest(e: Numerics, w: World, x: seq<F64>, fs: int, period: F64, withStoneMask: bool): (o: Outcome<DioResult>)
    ensures Idle(o.world) && o.destructed == w.ptrs
    ensures o.world.opts == Init(e, fs).0.(harvestPeriod := period)
    ensures o.result.Ok? <==> e.harvestFrames(fs, |x|, e.defaultPeriod) >= 0
    ensures e.harvestFrames(fs, |x|, e.defaultPeriod) < 0 ==> o.result == Err(Raised(Abort))
    ensures o.result.Ok? ==> var n: nat := e.harvestFrames(fs, |x|, e.defaultPeriod);
      && |o.result.value.f0| == |o.result.value.timeAxis| == n
      && EstimatedAs(e, o.result.value, x, fs, n, HarvestFrame(e, x, fs, period), withStoneMask)
  {
    var ctx := map[SignalSlot := Vec(x)];
    var (opts, _) := Init(e, fs);
    ReadVecExact(ctx, SignalSlot, e);
    var r := EngineHarvest(e, opts, ctx, |x|, fs, period, Flag(withStoneMask));
    if r.Err? then Finish(w, opts.(harvestPeriod := period), Err(Raised(r.error)))
    else
      var (c, opts') := r.value;
      Finish(w, opts', Ok(DioResult(c[F0Slot].v, c[TimeSlot].v)))
  }

  /** The slot table `[x, t, f0]` of the three analysis calls after DIO. */
  function Inputs(x: seq<F64>, t: seq<F64>, f0: seq<F64>): (c: Context)
    ensures SignalSlot in c && TimeSlot in c && F0Slot in c
    ensures c[SignalSlot] == Vec(x) && c[TimeSlot] == Vec(t) && c[F0Slot] == Vec(f0)
  {
    map[SignalSlot := Vec(x), TimeSlot := Vec(t), F0Slot := Vec(f0)]
  }

  /** Copying `[x, t, f0]` in for `f0.length` frames fails exactly when the
      time axis is longer than f0, and then on slot 1. */
  lemma InputsRead(e: Numerics, x: seq<F64>, t: seq<F64>, f0: seq<F64>)
    ensures var r := ReadInputs(e, Inputs(x, t, f0), |x|, |f0|);
      && (r.Ok? <==> |t| <= |f0|)
      && (r.Err? ==> r.error == SlotTooLong(TimeSlot))
      && (r.Ok? ==> r.value == (x, Pad(t, |f0|, e.junk), f0))
  {
    var c := Inputs(x, t, f0);
    ReadVecExact(c, SignalSlot, e);
    ReadVecExact(c, F0Slot, e);
  }

  /** `stonemask(x, f0, t, fs)`: refines f0 over `f0.length` frames. The
      options are not reset. A time axis shorter than f0 is padded with
      whatever the engine's array held. */
  function StoneMask(e: Numerics, w: World, x: seq<F64>, f0: seq<F64>, t: seq<F64>, fs: int): (o: Outcome<seq<F64>>)
    ensures Idle(o.world) && o.destructed == w.ptrs && o.world.opts == w.opts
    ensures o.result.Ok? <==> |t| <= |f0|
    ensures o.result.Err? ==> o.result.error == Raised(SlotTooLong(TimeSlot))
    ensures o.result.Ok? ==> o.result.value == Refine(e, x, fs, Pad(t, |f0|, e.junk), f0, |f0|)
  {
    var ctx := Inputs(x, t, f0);
    InputsRead(e, x, t, f0);
    var r := EngineStoneMask(e, ctx, |x|, fs, |f0|);
    if r.Err? then Finish(w, w.opts, Err(Raised(SlotTooLong(TimeSlot))))
    else Finish(w, w.opts, Ok(r.value[F0Slot].v))
  }

  /** `sp` is the full `|f0|` by `fft_size / 2 + 1` spectrogram CheapTrick
      computes from the signal, time axis and f0. */
  predicate SpectrogramOf(e: Numerics, x: seq<F64>, fs: int, t: seq<F64>, f0: seq<F64>, fft: int, sp: Slot) {
    && Full(sp) && sp.rows == |f0| && sp.cols == Width(fft)
    && forall i, j :: 0 <= i < |f0| && 0 <= j < Width(fft) ==> sp.data[i][j] == e.cheapTrick(x, fs, t, f0, fft, i, j)
  }

  /** `ap` is the full `|f0|` by `fft_size / 2 + 1` aperiodicity D4C
      computes from the signal, time axis and f0. */
  predicate AperiodicityOf(e: Numerics, x: seq<F64>, fs: int, t: seq<F64>, f0: seq<F64>, fft: int, ap: Slot) {
    && Full(ap) && ap.rows == |f0| && ap.cols == Width(fft)
    && forall i, j :: 0 <= i < |f0| && 0 <= j < Width(fft) ==> ap.data[i][j] == e.d4c(x, fs, t, f0, fft, i, j)
  }

  /** `cheaptrick(x, f0, t, fs)`: the spectrogram from slot 3 and the FFT
      size the engine returns, which `assertRet` rejects when negative. */
  function CheapTrick(e: Numerics, w: World, x: seq<F64>, f0: seq<F64>, t: seq<F64>, fs: int): (o: Outcome<CheapTrickResult>)
    ensures Idle(o.world) && o.destructed == w.ptrs && o.world.opts == Init(e, fs).0
    ensures o.result.Ok? <==> |t| <= |f0| && e.fftFor(fs) >= 0
    ensures |t| > |f0| ==> o.result == Err(Raised(SlotTooLong(TimeSlot)))
    ensures |t| <= |f0| && AllocationAborts(|f0|, Width(e.fftFor(fs))) ==> o.result == Err(Raised(Abort))
    ensures |t| <= |f0| && |f0| > 0 && Width(e.fftFor(fs)) == 0 ==> o.result == Err(Raised(MissingRow(SpectrogramSlot)))
    ensures |t| <= |f0| && (|f0| == 0 || Width(e.fftFor(fs)) > 0) && e.fftFor(fs) < 0 ==> o.result == Err(InvalidNumber)
    ensures o.result.Ok? ==> var sp := o.result.value.spectrogram;
      && o.result.value.fftSize == e.fftFor(fs)
      && Full(sp) && sp.rows == |f0| && sp.cols == Width(e.fftFor(fs))
    ensures o.result.Ok? ==>
      SpectrogramOf(e, x, fs, Pad(t, |f0|, e.junk), f0, e.fftFor(fs), o.result.value.spectrogram)
  {
    var ctx := Inputs(x, t, f0);
    InputsRead(e, x, t, f0);
    var (opts, _) := Init(e, fs);
    var r := EngineCheapTrick(e, opts, ctx, |x|, fs, |f0|);
    if r.Err? then Finish(w, opts, Err(Raised(r.error)))
    else
      var (c, opts', fft) := r.value;
      var checked := AssertRet(Some(fft));
      if checked.Err? then Finish(w, opts', Err(checked.error))
      else Finish(w, opts', Ok(CheapTrickResult(fft, c[SpectrogramSlot])))
  }

  /** The FFT size `_d4c` settles on. */
  function D4CFftSize(e: Numerics, fs: int, fftSize: int): int {
    if fftSize <= 0 then e.fftFor(fs) else fftSize
  }

  /** `d4c(x, f0, t, fs, fft_size)`: the aperiodicity from slot 4. */
  function D4C(e: Numerics, w: World, x: seq<F64>, f0: seq<F64>, t: seq<F64>, fs: int, fftSize: int): (o: Outcome<Slot>)
    ensures Idle(o.world) && o.destructed == w.ptrs && o.world.opts == Init(e, fs).0
    ensures var width := Width(D4CFftSize(e, fs, fftSize));
      && (o.result.Ok? <==> |t| <= |f0| && (|f0| == 0 || width > 0))
      && (|t| > |f0| ==> o.result == Err(Raised(SlotTooLong(TimeSlot))))
      && (|t| <= |f0| && AllocationAborts(|f0|, width) ==> o.result == Err(Raised(Abort)))
      && (o.result.Ok? ==> Full(o.result.value) && o.result.value.rows == |f0| && o.result.value.cols == width)
    ensures o.result.Ok? ==>
      AperiodicityOf(e, x, fs, Pad(t, |f0|, e.junk), f0, D4CFftSize(e, fs, fftSize), o.result.value)
  {
    var ctx := Inputs(x, t, f0);
    InputsRead(e, x, t, f0);
    var (opts, _) := Init(e, fs);
    var r := EngineD4C(e, ctx, |x|, fs, |f0|, fftSize);
    if r.Err? then Finish(w, opts, Err(Raised(r.error)))
    else Finish(w, opts, Ok(r.value[AperiodicitySlot]))
  }

  /** A non-negative FFT size gives rows of at least one element. */
  lemma WidthPositive(fft: int)
    requires fft >= 0
    ensures Width(fft) >= 1
  {
  }

  datatype WorldResult = WorldResult(timeAxis: seq<F64>, f0: seq<F64>, fftSize: int, spectrogram: Slot, aperiodicity: Slot)

  /** `wav2world(x, fs, frame_period)`: DIO without refinement, then
      StoneMask, CheapTrick and D4C with the default FFT size, each a call
      of its own; the first exception ends the chain. */
  function Wav2World(e: Numerics, w: World, x: seq<F64>, fs: int, period: F64): (o: Outcome<WorldResult>)
    ensures Idle(o.world) && o.destructed == w.ptrs
    ensures o.result.Ok? <==> e.dioFrames(fs, |x|, period) >= 0 && e.fftFor(fs) >= 0
    ensures e.dioFrames(fs, |x|, period) < 0 ==> o.result == Err(Raised(Abort))
    ensures o.result.Ok? ==> var v := o.result.value;
      && |v.f0| == |v.timeAxis| == e.dioFrames(fs, |x|, period)
      && v.fftSize == e.fftFor(fs)
      && Full(v.spectrogram) && Full(v.aperiodicity)
      && v.spectrogram.rows == v.aperiodicity.rows == |v.f0|
      && v.spectrogram.cols == v.aperiodicity.cols == Width(v.fftSize)
    ensures o.result.Ok? ==> var v := o.result.value; var d := Dio(e, w, x, fs, period, false).result.value;
      && v.timeAxis == d.timeAxis
      && v.f0 == Refine(e, x, fs, d.timeAxis, d.f0, |d.f0|)
      && SpectrogramOf(e, x, fs, v.timeAxis, v.f0, v.fftSize, v.spectrogram)
      && AperiodicityOf(e, x, fs, v.timeAxis, v.f0, v.fftSize, v.aperiodicity)
  {
    var o1 := Dio(e, w, x, fs, period, false);
    if o1.result.Err? then Outcome(o1.world, w.ptrs, Err(o1.result.error))
    else
      var o := Spectra(e, o1.world, x, o1.result.value, fs);
      Outcome(o.world, w.ptrs, o.result)
  }

  /** The calls of `wav2world` after DIO: StoneMask over DIO's time axis
      and f0, then CheapTrick and D4C over the refined f0, the first
      exception ending the chain. */
  function Spectra(e: Numerics, w: World, x: seq<F64>, d: DioResult, fs: int): (o: Outcome<WorldResult>)
    requires |d.f0| == |d.timeAxis|
    ensures Idle(o.world)
    ensures o.result.Ok? <==> e.fftFor(fs) >= 0
    ensures o.result.Ok? ==> var v := o.result.value;
      && v.timeAxis == d.timeAxis
      && v.f0 == Refine(e, x, fs, d.timeAxis, d.f0, |d.f0|)
      && v.fftSize == e.fftFor(fs)
      && Full(v.spectrogram) && Full(v.aperiodicity)
      && v.spectrogram.rows == v.aperiodicity.rows == |v.f0|
      && v.spectrogram.cols == v.aperiodicity.cols == Width(v.fftSize)
    ensures o.result.Ok? ==> var v := o.result.value;
      && SpectrogramOf(e, x, fs, v.timeAxis, v.f0, v.fftSize, v.spectrogram)
      && AperiodicityOf(e, x, fs, v.timeAxis, v.f0, v.fftSize, v.aperiodicity)
  {
    var o2 := StoneMask(e, w, x, d.f0, d.timeAxis, fs);
    PadExact(d.timeAxis, e.junk);
    var f0 := o2.result.value;
    var o3 := CheapTrick(e, o2.world, x, f0, d.timeAxis, fs);
    if o3.result.Err? then Outcome(o3.world, w.ptrs, Err(o3.result.error))
    else
      var ct := o3.result.value;
      WidthPositive(e.fftFor(fs));
      var o4 := D4C(e, o3.world, x, f0, d.timeAxis, fs, 0);
      var ap := o4.result.value;
      Outcome(o4.world, w.ptrs, Ok(WorldResult(d.timeAxis, f0, ct.fftSize, ct.spectrogram, ap)))
  }

  // ---------------------------------------------------------------------
  // Synthesis

  /** The shape checks `synthesis` makes before anything else. */
  predicate Matching(f0: seq<F64>, sp: Slot, ap: Slot)
    requires sp.Mat? && ap.Mat?
  {
    |f0| == sp.rows && |f0| == ap.rows && sp.cols == ap.cols
  }

  /** The slot table `[null, null, f0, sp, ap]`. */
  function SynthesisInputs(f0: seq<F64>, sp: Slot, ap: Slot): (c: Context)
    ensures SignalSlot !in c && TimeSlot !in c
    ensures F0Slot in c && SpectrogramSlot in c && AperiodicitySlot in c
    ensures c[F0Slot] == Vec(f0) && c[SpectrogramSlot] == sp && c[AperiodicitySlot] == ap
  {
    map[F0Slot := Vec(f0), SpectrogramSlot := sp, AperiodicitySlot := ap]
  }

  /** `synthesis(f0, spectrogram, aperiodicity, fs, frame_period)`: frame
      counts and widths are checked first; then the engine is called with
      `fft_size = (width - 1) * 2` and the waveform is read from slot 0. The
      frame period crosses into the engine as an integer. */
  function Synthesis(e: Numerics, w: World, f0: seq<F64>, sp: Slot, ap: Slot, fs: int, period: int): (o: Outcome<seq<F64>>)
    requires sp.Mat? && ap.Mat?
    ensures Idle(o.world) && o.destructed == w.ptrs && o.world.opts == w.opts
    ensures (|f0| != sp.rows || |f0| != ap.rows) ==> o.result == Err(MismatchedFrames(|f0|, sp.rows, ap.rows))
    ensures |f0| == sp.rows == ap.rows && sp.cols != ap.cols ==> o.result == Err(MismatchedDims(sp.cols, ap.cols))
    ensures o.result.Ok? ==> Matching(f0, sp, ap)
    ensures Matching(f0, sp, ap) && AllocationAborts(|f0|, sp.cols) ==> o.result == Err(Raised(Abort))
    ensures Matching(f0, sp, ap) && Full(sp) && Full(ap) ==>
      (o.result.Ok? <==> !AllocationAborts(|f0|, sp.cols) && e.synthesisLength(|f0|, (sp.cols - 1) * 2, fs, period) >= 0)
    ensures o.result.Ok? ==> |o.result.value| == e.synthesisLength(|f0|, (sp.cols - 1) * 2, fs, period)
    ensures o.result.Ok? && Full(sp) && Full(ap) ==> var y := o.result.value;
      forall i :: 0 <= i < |y| ==> y[i] == e.synthesis(f0, sp.data, ap.data, (sp.cols - 1) * 2, period, fs, i)
  {
    if |f0| != sp.rows || |f0| != ap.rows then Finish(w, w.opts, Err(MismatchedFrames(|f0|, sp.rows, ap.rows)))
    else if sp.cols != ap.cols then Finish(w, w.opts, Err(MismatchedDims(sp.cols, ap.cols)))
    else
      var ctx := SynthesisInputs(f0, sp, ap);
      var fft := (sp.cols - 1) * 2;
      WidthRoundTrip(sp.cols);
      ReadVecExact(ctx, F0Slot, e);
      SynthesisReads(e, ctx, sp, ap);
      assert Full(sp) && Full(ap) && !AllocationAborts(|f0|, sp.cols) ==>
        && ReadMat(ctx, SpectrogramSlot, |f0|, Width(fft), e.junk) == Ok(sp.data)
        && ReadMat(ctx, AperiodicitySlot, |f0|, Width(fft), e.junk) == Ok(ap.data) by {
        if Full(sp) && Full(ap) && !AllocationAborts(|f0|, sp.cols) {
          FullReadsBack(ctx, SpectrogramSlot, e.junk);
          FullReadsBack(ctx, AperiodicitySlot, e.junk);
        }
      }
      var r := EngineSynthesis(e, ctx, |f0|, fft, fs, period);
      if r.Err? then Finish(w, w.opts, Err(Raised(r.error)))
      else Finish(w, w.opts, Ok(r.value[SignalSlot].v))
  }

  /** Full slots of matching shape copy into the engine's arrays. */
  lemma SynthesisReads(e: Numerics, ctx: Context, sp: Slot, ap: Slot)
    requires SpectrogramSlot in ctx && ctx[SpectrogramSlot] == sp
    requires AperiodicitySlot in ctx && ctx[AperiodicitySlot] == ap
    ensures Full(sp) && sp.cols >= 0 ==> ReadMat(ctx, SpectrogramSlot, sp.rows, sp.cols, e.junk).Ok?
    ensures Full(ap) && ap.cols >= 0 ==> ReadMat(ctx, AperiodicitySlot, ap.rows, ap.cols, e.junk).Ok?
  {
    if Full(sp) {
      FullRowsFit(sp, 0, sp.rows);
    }
    if Full(ap) {
      FullRowsFit(ap, 0, ap.rows);
    }
  }

  /** A failed shape check never reaches the engine: the outcome is the
      same whatever engine the world runs on. */
  lemma SynthesisChecksFirst(e1: Numerics, e2: Numerics, w: World, f0: seq<F64>, sp: Slot, ap: Slot, fs: int, period: int)
    requires sp.Mat? && ap.Mat? && !Matching(f0, sp, ap)
    ensures Synthesis(e1, w, f0, sp, ap, fs, period) == Synthesis(e2, w, f0, sp, ap, fs, period)
    ensures Synthesis(e1, w, f0, sp, ap, fs, period).result.Err?
  {
  }

  /** What `wav2world` produces passes every check of `synthesis`, and the
      engine recovers exactly the analysis width from the FFT size the host
      derives: resynthesis fails only if the engine's output length is
      negative. */
  lemma Wav2WorldResynthesises(e: Numerics, w: World, x: seq<F64>, fs: int, period: F64, w2: World, period2: int)
    requires Wav2World(e, w, x, fs, period).result.Ok?
    ensures var v := Wav2World(e, w, x, fs, period).result.value;
      var s := Synthesis(e, w2, v.f0, v.spectrogram, v.aperiodicity, fs, period2);
      && Matching(v.f0, v.spectrogram, v.aperiodicity)
      && Width((v.spectrogram.cols - 1) * 2) == Width(v.fftSize)
      && (s.result.Ok? <==> e.synthesisLength(|v.f0|, (v.spectrogram.cols - 1) * 2, fs, period2) >= 0)
  {
    var v := Wav2World(e, w, x, fs, period).result.value;
    ResynthesisOfAnalysis(e, w2, v, fs, period2);
  }

  /** The facts about an analysis result that resynthesis depends on. */
  lemma ResynthesisOfAnalysis(e: Numerics, w2: World, v: WorldResult, fs: int, period2: int)
    requires v.fftSize >= 0 && Full(v.spectrogram) && Full(v.aperiodicity)
    requires v.spectrogram.rows == v.aperiodicity.rows == |v.f0|
    requires v.spectrogram.cols == v.aperiodicity.cols == Width(v.fftSize)
    ensures var s := Synthesis(e, w2, v.f0, v.spectrogram, v.aperiodicity, fs, period2);
      && Matching(v.f0, v.spectrogram, v.aperiodicity)
      && Width((v.spectrogram.cols - 1) * 2) == Width(v.fftSize)
      && (s.result.Ok? <==> e.synthesisLength(|v.f0|, (v.spectrogram.cols - 1) * 2, fs, period2) >= 0)
  {
    WidthRoundTrip(v.spectrogram.cols);
    WidthPositive(v.fftSize);
  }

  // ---------------------------------------------------------------------
  // Audio files

  datatype Wav = Wav(x: seq<F64>, fs: int)

  /** `[null, new WasiFile(8), null, data]`: standard output is a fresh
      8-byte file, descriptor 3 is the data file. */
  function FileTable(data: File): (t: FdTable)
    requires Valid(data)
    ensures TableValid(t) && HasStdout(t) && t.Open? && !Missing(t, PathRouting.DataFd)
    ensures FileAt(t, PathRouting.StdoutFd) == FromCapacity(8) && FileAt(t, PathRouting.DataFd) == data
  {
    Open([None, Some(FromCapacity(8)), None, Some(data)])
  }

  /** The message a failed audio call throws: the text on standard output,
      untrimmed, or `'Unknown Error'` when there is none. */
  function Report(fds: FdTable): (x: Exception)
    requires TableValid(fds) && HasStdout(fds)
    ensures x == EngineReport(Data(FileAt(fds, PathRouting.StdoutFd))) || x == UnknownError
    ensures x == UnknownError <==> |Data(FileAt(fds, PathRouting.StdoutFd))| == 0
  {
    var text := Data(FileAt(fds, PathRouting.StdoutFd));
    if |text| > 0 then EngineReport(text) else UnknownError
  }

  /** Standard output after one print to the fresh file holds exactly that
      print. */
  lemma FirstPrint(fds: FdTable, after: FdTable, text: seq<byte>)
    requires TableValid(fds) && HasStdout(fds) && TableValid(after) && HasStdout(after)
    requires FileAt(fds, PathRouting.StdoutFd) == FromCapacity(8)
    requires |text| == 0 ==> after == fds
    requires |text| > 0 ==> WriteEffect(FileAt(fds, PathRouting.StdoutFd), FileAt(after, PathRouting.StdoutFd), text)
    ensures Report(after) == if |text| > 0 then EngineReport(text) else UnknownError
  {
    if |text| > 0 {
      EmptyFileTakesContent(FileAt(fds, PathRouting.StdoutFd), FileAt(after, PathRouting.StdoutFd), text);
    }
  }

  /** The steps `wavread` shares as written and corrected: the length, then
      the decode when the length is positive. Returns the descriptor table
      for the report, the samples and rate when both are positive, and the
      slot table as the engine left it. */
  function ReadWav(e: Numerics, wav: seq<byte>): (r: (FdTable, Option<Wav>, Context))
    ensures TableValid(r.0) && HasStdout(r.0)
    ensures r.1.Some? ==> r.2 == map[SignalSlot := Vec(r.1.value.x)]
    ensures r.1.None? ==> r.2 == map[]
    ensures var data := Some(wav); var n := e.audioLength(data);
      && (r.1.Some? <==> n > 0 && e.wavRate(data) > 0)
      && (r.1.Some? ==> r.1.value == Wav(seq(n, i requires 0 <= i < n => e.wavSample(data, n, i)), e.wavRate(data)))
      && (n <= 0 ==> Report(r.0) == if |e.lengthReport(data)| > 0 then EngineReport(e.lengthReport(data)) else UnknownError)
  {
    var fds := FileTable(FromBytes(wav));
    assert DataFile(fds) == Some(wav);
    var (fds1, n) := EngineWavReadLength(e, fds).value;
    FirstPrint(fds, fds1, e.lengthReport(Some(wav)));
    if n <= 0 then (fds1, None, map[])
    else
      var (ctx, fds2, fs) := EngineWavRead(e, map[], fds1, n).value;
      if fs <= 0 then (fds2, None, ctx)
      else (fds2, Some(Wav(ctx[SignalSlot].v, fs)), ctx)
  }

  /** `wavread(wav)` as written: after a successful decode it reads
      `context[1][1]` for the bit depth, but slot 1 was never written, so
      the read throws. */
  function WavReadAsWritten(e: Numerics, w: World, wav: seq<byte>): (o: Outcome<Wav>)
    ensures Idle(o.world) && o.destructed == w.ptrs && o.world.opts == w.opts
    ensures var data := Some(wav);
      e.audioLength(data) > 0 && e.wavRate(data) > 0 ==> o.result == Err(MissingMeta)
    ensures o.result.Err?
  {
    var (fds, decoded, ctx) := ReadWav(e, wav);
    if decoded.Some? then Finish(w, w.opts, ReadMeta(ctx, decoded.value))
    else Finish(w, w.opts, Err(Report(fds)))
  }

  /** `meta = context[1]` followed by `meta[1]`: indexing a slot that holds
      nothing throws a TypeError; the bit depth itself is not modelled. */
  function ReadMeta(ctx: Context, wav: Wav): (r: Result<Wav, Exception>)
    ensures r.Ok? <==> TimeSlot in ctx
    ensures r.Err? ==> r.error == MissingMeta
    ensures r.Ok? ==> r.value == wav
  {
    if TimeSlot in ctx then Ok(wav) else Err(MissingMeta)
  }

  /** `wavread(wav)` without the bit-depth read: the samples from slot 0 and
      the rate the engine returned. */
  function WavRead(e: Numerics, w: World, wav: seq<byte>): (o: Outcome<Wav>)
    ensures Idle(o.world) && o.destructed == w.ptrs && o.world.opts == w.opts
    ensures var data := Some(wav); var n := e.audioLength(data);
      && (o.result.Ok? <==> n > 0 && e.wavRate(data) > 0)
      && (o.result.Ok? ==>
            && |o.result.value.x| == n && o.result.value.fs == e.wavRate(data)
            && forall i :: 0 <= i < n ==> o.result.value.x[i] == e.wavSample(data, n, i))
      && (n <= 0 ==> o.result == Err(if |e.lengthReport(data)| > 0 then EngineReport(e.lengthReport(data)) else UnknownError))
      && (o.result.Err? ==> o.result.error.EngineReport? || o.result.error == UnknownError)
  {
    var (fds, decoded, _) := ReadWav(e, wav);
    if decoded.Some? then Finish(w, w.opts, Ok(decoded.value))
    else Finish(w, w.opts, Err(Report(fds)))
  }

  /** `wavwrite(x, fs)`: the encoding is written to `sample.wav`, that is
      descriptor 3, a fresh 256-byte file; its contents are returned when
      it is not empty. */
  function WavWrite(e: Numerics, w: World, x: seq<F64>, fs: int): (o: Outcome<seq<byte>>)
    ensures Idle(o.world) && o.destructed == w.ptrs && o.world.opts == w.opts
    ensures o.result.Ok? <==> |e.wavEncode(x, fs)| > 0
    ensures o.result.Ok? ==> o.result.value == e.wavEncode(x, fs)
    ensures o.result.Err? ==> o.result.error == UnknownError
  {
    var ctx := map[SignalSlot := Vec(x)];
    ReadVecExact(ctx, SignalSlot, e);
    var fds := FileTable(FromCapacity(256));
    var fds1 := EngineWavWrite(e, ctx, fds, |x|, fs).value;
    EncodingWritten(fds, fds1, e.wavEncode(x, fs));
    var file := FileAt(fds1, PathRouting.DataFd);
    if file.size > 0 then Finish(w, w.opts, Ok(Data(file)))
    else Finish(w, w.opts, Err(Report(fds1)))
  }

  /** After the codec's single write to the fresh data file, the file holds
      exactly the encoding and standard output is still empty. */
  lemma EncodingWritten(fds: FdTable, after: FdTable, bytes: seq<byte>)
    requires fds == FileTable(FromCapacity(256))
    requires TableValid(after) && after.Open? && !Missing(after, PathRouting.DataFd)
    requires |after.files| == |fds.files|
    requires forall i :: 0 <= i < |fds.files| && i != PathRouting.DataFd ==> after.files[i] == fds.files[i]
    requires |bytes| > 0 ==> WriteEffect(FileAt(fds, PathRouting.DataFd), FileAt(after, PathRouting.DataFd), bytes)
    requires |bytes| == 0 ==> after == fds
    ensures HasStdout(after) && Report(after) == UnknownError
    ensures var file := FileAt(after, PathRouting.DataFd);
      && (file.size > 0 <==> |bytes| > 0)
      && (|bytes| > 0 ==> Data(file) == bytes)
  {
    assert after.files[PathRouting.StdoutFd] == fds.files[PathRouting.StdoutFd];
    if |bytes| > 0 {
      EmptyFileTakesContent(FromCapacity(256), FileAt(after, PathRouting.DataFd), bytes);
    }
  }
}
